=== FILE: README.md ===
# Cainiao tracking helpers: download ledger, tracking formatter, comment-to-speech text

A Dafny model of three pieces of the repository.

- **The download ledger.** This is `StatusManager` in `tk-auto-dl/src/status_manager.py`.
  - It keeps a record per item id, a FIFO download queue, a set of processed ids and a stop flag.
  - It persists all but the stop flag to a JSON file.
  - Workers claim queued ids and report progress.
  - Administrative passes resume paused items, reset failed items or force items to `completed`.
- **The tracking formatter.** This is `format_aftership_response` in `netlify/functions/app.py`.
  - It maps an AfterShip tag to a label and CSS class.
  - It lists checkpoints newest first, using a stable sort.
  - It picks the first checkpoint with `[lng, lat]` coordinates.
  - It chooses the `last_updated` value.
- **The comment-to-speech text handling.** This is `tk-auto-dl/src/llm_tts_service.py`.
  - `clean_text_for_tts` removes fenced blocks, collapses whitespace and strips.
  - `get_language` takes a fenced language code from the model's answer, or else the lower-cased answer.
  - `generate_reply` and `translate_text` are thin wrappers over the model call.
  - `process_comment_for_audio` decides which translations and clips are produced.

Every operation is a pure function of the old state. Inputs the code gets from outside are parameters:

- the clock (`now`, `today`, and the fallback `last_updated` string);
- the language model's answers;
- the speech service's results;
- ISO timestamp reformatting;
- whether a file write succeeds.

Python dictionaries of known shape become datatypes, and missing keys become `Option`. A record's unknown keys are kept in an `extra` map. The ledger's key order is modelled explicitly because the two requeue passes push ids to the head of the queue in that order.

Modules:

- `Basics`, `JsonValue`, `SeqUtil`, `PyText`: shared vocabulary. This covers Python whitespace, `strip`, `lower`, string ordering, the first-occurrence `deque.remove`, and JSON scalars with their truthiness.
- `TaskRecord`: the per-id record, the status strings and the record rewrites.
- `Ledger`: state, enqueue, claim, progress report, local path, stop flag, reset.
- `Requeue`: `resume_paused_tasks` and `reset_failed_tasks`. Each is a recursive pass proved equal to a declarative reference.
- `ForceComplete`: `mark_errors_as_completed` and `mark_specific_tasks_as_completed`. Each is a recursive pass proved equal to a declarative reference.
- `Views`: the read-only queries.
- `Store`: load and save, the manager as memory plus disk, and restart.
- `LedgerProps`: the well-formedness invariant, which every command preserves, and scenario lemmas.
- `CheckpointOrder`, `Tracking`: the AfterShip formatter.
- `TtsText`, `CommentPipeline`: the intended text service.
- `WithoutReImport`: the text service as shipped, without `import re` (see Findings).

Behaviour of the code worth knowing:

- **Queue and processed set may overlap.** An id can be queued and processed at once, e.g. after a worker reports `finished` for an id that is still queued. `LedgerProps.QueueAndProcessedMayOverlap` exhibits this.
- **Queued ids need not be pending.** A queued id can stay `paused`: resume leaves a paused id that is already queued untouched, although its log line says the status is updated. `LedgerProps.QueuedMayStayPaused` exhibits this.
- **Enqueue skips processed ids only for known records.** `add_download_task` skips an id in `processed_ids` only when a record for it exists.
- **Completed ids are skipped.** `mark_specific_tasks_as_completed` skips ids that are already `completed`, so they are not added to `processed_ids`.
- **An unknown head id is dropped without saving.** A claim that pops an id with no record saves nothing. Memory and file then differ until the next save (`Store.UnknownHeadNotSaved`).
- **The stop flag survives a load.** A successful `_load_status` keeps the current stop flag; only a failed load clears it. The flag is never written to the file.

## Model

| member | source | states |
|---|---|---|
| TaskRecord.StatusOf | tk-auto-dl/src/status_manager.py:215-234 | decoding a stored status value yields a canonical status whose encoding is the same value; it is `Other` exactly when the value is not one of the seven state strings |
| TaskRecord.StatusRoundTrip | tk-auto-dl/src/status_manager.py:215-234 | decoding the encoding of a canonical status gives it back |
| TaskRecord.NewTask | tk-auto-dl/src/status_manager.py:131-142 | an (re-)enqueued record is `pending_download` with progress 0, no local path and no error; title, url, added date and rating come from the video info |
| TaskRecord.Merge | tk-auto-dl/src/status_manager.py:205-210 | each of status, title, url, added date, rating, local path and error message takes the reported value when the report has that key and keeps the old one otherwise; report keys outside the record's own are stored and earlier ones kept, and no other key appears; progress becomes the report's `percentage`, or 0; the timestamp becomes now |
| TaskRecord.Claimed | tk-auto-dl/src/status_manager.py:177-182 | a claimed record is `downloading` with progress 0 and no error; every other field is unchanged |
| TaskRecord.AsCompleted | tk-auto-dl/src/status_manager.py:448-452 | a forced record is `completed` with progress 100 and no error; every other field is unchanged |
| TaskRecord.DerivedProgress | tk-auto-dl/src/status_manager.py:269-280 | the displayed progress is the stored progress while downloading (0 when missing), otherwise 100 exactly for completed records and 0 for the rest |
| Ledger.ResetState | tk-auto-dl/src/status_manager.py:84-102 | a reset leaves no tasks, an empty queue, no processed ids and no stop request |
| Ledger.AddDownloadTask | tk-auto-dl/src/status_manager.py:105-158 | without an id, or with a record that is completed, processed, pending or downloading, nothing changes; otherwise the record is rewritten, a new id is appended to the key order and a known one keeps its place, the id leaves the processed set and is appended to the queue only when absent, and it occurs there exactly once if it was absent |
| Ledger.ClaimNext | tk-auto-dl/src/status_manager.py:161-198 | when stopped or the queue is empty nothing happens; otherwise the head leaves the queue, and if it has a record that record becomes its claimed form (`downloading`, progress 0, no error, new timestamp) and is returned with its title and url, while an unknown head is dropped without a claim; no other record changes |
| Ledger.UpdateProgress | tk-auto-dl/src/status_manager.py:201-242 | an unknown id changes nothing; a known record becomes the report merged into it, except that `finished` sets `completed`; `finished` and `skipped` add the id to the processed set; only the reported record changes |
| Ledger.ReportedStatuses | tk-auto-dl/src/status_manager.py:213-234 | `finished` completes and `skipped` skips the record, both marking it processed; `error`, `failed_download` and `paused` are stored without marking it |
| Ledger.SetLocalPath | tk-auto-dl/src/status_manager.py:245-258 | a known record gets the path and a new timestamp; its status and everything else stay |
| Ledger.RequestStop | tk-auto-dl/src/status_manager.py:320-327 | the stop flag is raised and nothing else changes |
| Ledger.ClearStop | tk-auto-dl/src/status_manager.py:330-337 | the stop flag is lowered and nothing else changes |
| Requeue.Refresh | tk-auto-dl/src/status_manager.py:376-379 | a requeued record is `pending_download` and no longer eligible; a reset also zeroes progress and clears the error |
| Requeue.Picked | tk-auto-dl/src/status_manager.py:349-377 | the ids a pass pushes are exactly the listed ids with an eligible, unqueued record, without repetition |
| Requeue.VisitAllIsPassSpec | tk-auto-dl/src/status_manager.py:349-384 | the key-by-key pass equals the reference: the picked ids pushed to the head in reverse visiting order, and the touched records refreshed |
| Requeue.ResumePausedTasks | tk-auto-dl/src/status_manager.py:340-391 | resuming keeps the keys, the processed set and the stop flag |
| Requeue.ResumePausedExact | tk-auto-dl/src/status_manager.py:340-391 | on a well-formed state the new queue is the unqueued paused ids, in reverse key order, followed by the old queue; exactly those records become pending |
| Requeue.FailedProcessed | tk-auto-dl/src/status_manager.py:398-403 | the ids removed from the processed set are the processed ids whose record is `error` or `failed_download` |
| Requeue.ResetFailedTasks | tk-auto-dl/src/status_manager.py:394-423 | resetting keeps the keys and stop flag and removes failed ids from the processed set |
| Requeue.ResetFailedExact | tk-auto-dl/src/status_manager.py:394-423 | on a well-formed state every failed record is reset, leaves the processed set and is queued exactly once if it was not queued before; other records are unchanged |
| ForceComplete.CompletedNotSelected | tk-auto-dl/src/status_manager.py:440-451 | a forced record is never selected again, so a repeated id is harmless |
| ForceComplete.Targets | tk-auto-dl/src/status_manager.py:436-446 | the forced ids are exactly the listed ids whose record the pass selects |
| ForceComplete.VisitAllIsCompleteAll | tk-auto-dl/src/status_manager.py:436-461 | the id-by-id pass equals the reference: every target completed and processed, and its first queue occurrence removed |
| ForceComplete.MarkErrorsAsCompleted | tk-auto-dl/src/status_manager.py:426-465 | the pass keeps the keys, key order and stop flag |
| ForceComplete.MarkErrorsExact | tk-auto-dl/src/status_manager.py:426-465 | exactly the failed records whose last update parses to a date on or before today are completed and processed; the first queue occurrence of each leaves the queue, the rest of the queue keeps its order, and a duplicate-free queue loses them entirely; the rest is unchanged |
| ForceComplete.MarkSpecificTasksAsCompleted | tk-auto-dl/src/status_manager.py:468-498 | the pass keeps the keys, key order and stop flag |
| ForceComplete.MarkSpecificExact | tk-auto-dl/src/status_manager.py:468-498 | exactly the listed, known, not-yet-completed records are completed, processed and dequeued once, the rest of the queue keeping its order; unknown and completed ids are skipped |
| Views.GetAllStatus | tk-auto-dl/src/status_manager.py:261-288 | every record is shown with its derived progress, together with the queue length and the processed count |
| Views.GetTaskStatus | tk-auto-dl/src/status_manager.py:296-317 | a known id yields its record with derived progress, an unknown id nothing |
| Views.GetProcessedIds | tk-auto-dl/src/status_manager.py:290-294 | the returned set is the processed set, and its size is the processed count of the overview |
| Views.ViewsAgree | tk-auto-dl/src/status_manager.py:261-317 | the single-task view equals that task's entry in the overview |
| Store.Load | tk-auto-dl/src/status_manager.py:32-62 | a decoded file replaces tasks, queue and processed ids and keeps the stop flag; a missing or corrupt file resets everything |
| Store.Save | tk-auto-dl/src/status_manager.py:64-81 | loading what was saved restores the state, except that the stop flag is whatever the loader had |
| Store.Start | tk-auto-dl/src/status_manager.py:16-30 | a fresh manager holds the stored snapshot with no stop request, or the empty state |
| Store.Step | tk-auto-dl/src/status_manager.py:64-498 | a command changes memory as its operation says; when the coroutine reaches a save, a successful write makes the file load back to the new state, a failed `open` leaves the file as it was, and a failed `json.dump` leaves a truncated file that no longer decodes; a command that does not save leaves the file alone |
| Store.AfterWrite | tk-auto-dl/src/status_manager.py:64-81 | a completed write stores the state, a failed `open` keeps the old file, and a `json.dump` failure after `open(..., 'w')` has truncated it leaves a file whose load is the empty state |
| Store.FailedDumpLosesState | tk-auto-dl/src/status_manager.py:32-81 | after a failed `json.dump`, a restart begins from the empty state |
| Store.NoSaveNoChange | tk-auto-dl/src/status_manager.py:105-337 | a command that does not reach `_save_status` (an early return at lines 108-125 or 245-258, a stop request, a claim when stopped or the queue is empty) and does not drop an unknown head changes nothing but the stop flag and claims nothing, so the stored view is unchanged |
| Store.StepKeepsSynced | tk-auto-dl/src/status_manager.py:105-498 | when memory and file agree, every command except a claim of an unknown head keeps them in agreement |
| Store.RestartRecovers | tk-auto-dl/src/status_manager.py:16-62 | restarting from a synced file recovers the whole state with the stop request cleared |
| Store.UnknownHeadNotSaved | tk-auto-dl/src/status_manager.py:194-198 | dropping an unknown head is not written, so a restart brings the dropped id back |
| LedgerProps.ApplyKeepsInv | tk-auto-dl/src/status_manager.py:95-498 | every command preserves the well-formedness invariant: the key order lists each key once, the queue has no duplicates, and every stored status is canonical (a decoded status string, never `Other` with one of the seven state strings) |
| LedgerProps.EnqueueIdempotent | tk-auto-dl/src/status_manager.py:116-125 | enqueuing the same video twice is enqueuing it once |
| LedgerProps.ClaimExclusive | tk-auto-dl/src/status_manager.py:161-198 | in a duplicate-free queue two successive claims never hand out the same id |
| LedgerProps.StopGating | tk-auto-dl/src/status_manager.py:164-168 | while stopped no task is claimed; after clearing, the head is claimed again |
| LedgerProps.StaleErrorForgiven | tk-auto-dl/src/status_manager.py:438-457 | a failed record last updated on or before today is completed, processed and dequeued |
| LedgerProps.RecentErrorKept | tk-auto-dl/src/status_manager.py:441-461 | a record whose last update is missing, unparsable or after today is left as it is |
| LedgerProps.ResumeAfterRestart | tk-auto-dl/src/status_manager.py:340-391 | a paused, unqueued task survives a restart and is resumed ahead of the old queue |
| LedgerProps.QueueAndProcessedMayOverlap | tk-auto-dl/src/status_manager.py:213-218 | a queued id can also be in the processed set |
| LedgerProps.QueuedMayStayPaused | tk-auto-dl/src/status_manager.py:376-384 | resume leaves a paused id that is already queued paused |
| PyText.Strip | tk-auto-dl/src/llm_tts_service.py:75 | `strip()` returns a contiguous piece of its argument whose cut-off ends are whitespace only and which itself neither starts nor ends with whitespace; so it removes no other character |
| PyText.StripIsSlice | tk-auto-dl/src/llm_tts_service.py:75 | the stripped text sits at a known offset of its argument, so inner whitespace survives unchanged |
| PyText.Words | tk-auto-dl/src/llm_tts_service.py:87 | `split()` yields non-empty words without whitespace |
| PyText.Join | tk-auto-dl/src/llm_tts_service.py:87 | joining words with single spaces is empty only for no words and never starts or ends with whitespace |
| PyText.WordsOfJoin | tk-auto-dl/src/llm_tts_service.py:87 | splitting the space-joined words gives the same words back |
| PyText.NoWordsAllSpace | tk-auto-dl/src/llm_tts_service.py:87-88 | a text has no words exactly when it is all whitespace |
| PyText.LexLessTotal | netlify/functions/app.py:69 | Python string comparison orders any two different strings |
| TtsText.FindFence | tk-auto-dl/src/llm_tts_service.py:85 | finds the first "```", or reports that none occurs |
| TtsText.StripFences | tk-auto-dl/src/llm_tts_service.py:85 | the lazy `re.sub` of fenced blocks never lengthens the text; what it removes and keeps is stated by `TtsText.FencedBlockRemoved` and `TtsText.NoFenceKept` |
| TtsText.Collapse | tk-auto-dl/src/llm_tts_service.py:87 | collapsing whitespace leaves only single plain spaces, keeps every other character in order, and starts with whitespace exactly when the input does |
| TtsText.CollapseIsJoin | tk-auto-dl/src/llm_tts_service.py:87 | collapsing whitespace is joining the whitespace-separated words with single spaces, plus one space at the front when the input starts with whitespace and one at the end when it ends with whitespace after a word |
| TtsText.CleanTextForTts | tk-auto-dl/src/llm_tts_service.py:78-91 | the cleaned text is the words of the text left after removing fenced blocks, joined by single spaces; so it is normalized (single spaces, none at the ends) and keeps exactly the visible characters left after removing fenced blocks |
| TtsText.CleanIsJoinedWords | tk-auto-dl/src/llm_tts_service.py:87 | collapsing and then stripping gives the `" ".join` of `split()` |
| TtsText.FencedBlockRemoved | tk-auto-dl/src/llm_tts_service.py:85 | when no fence opens before it, a block is removed from its opening fence through the first closing fence (lazy match, backticks inside allowed), the text before it is kept and removal goes on after it |
| TtsText.NoFenceKept | tk-auto-dl/src/llm_tts_service.py:85 | text without "```" passes the block removal unchanged |
| TtsText.CleanFixesNormalized | tk-auto-dl/src/llm_tts_service.py:78-91 | cleaning leaves normalized text without fences untouched |
| TtsText.MatchAt | tk-auto-dl/src/llm_tts_service.py:72 | an anchored match returns a two- or five-character code enclosed in fences, and fails only when no code is fenced at that position |
| TtsText.SearchFrom | tk-auto-dl/src/llm_tts_service.py:72-74 | the search returns the position of the leftmost match, no earlier position matching, or none when no position from the start on matches |
| TtsText.DetectLanguage | tk-auto-dl/src/llm_tts_service.py:64-76 | a missing or empty answer gives nothing; a fenced code gives the leftmost one, untouched; otherwise the answer is stripped and lower-cased |
| TtsText.FencedCodeRoundTrip | tk-auto-dl/src/llm_tts_service.py:71-74 | an answer that is exactly a fenced code yields that code, case preserved |
| TtsText.PlainAnswer | tk-auto-dl/src/llm_tts_service.py:75 | an answer without backticks is taken whole, stripped and lower-cased |
| TtsText.GenerateReply | tk-auto-dl/src/llm_tts_service.py:103-112 | a reply exists exactly when the answer is non-empty and survives cleaning; it is then the cleaned answer (the words left after removing fenced blocks, joined by single spaces), non-empty and normalized |
| TtsText.TranslateText | tk-auto-dl/src/llm_tts_service.py:114-122 | a translation exists exactly when the answer is non-empty; it is then the cleaned answer (the words left after removing fenced blocks, joined by single spaces), normalized and possibly empty |
| TtsText.TranslationMayBeEmpty | tk-auto-dl/src/llm_tts_service.py:104-121 | an answer that is only a fenced block gives an empty translation but no reply |
| CommentPipeline.TranslateBlock | tk-auto-dl/src/llm_tts_service.py:186-211 | a target is translated only when the language is known and differs from it, and voiced only when the translation is non-empty |
| CommentPipeline.ReplyBlock | tk-auto-dl/src/llm_tts_service.py:214-219 | the reply is voiced exactly when it is non-empty |
| CommentPipeline.ProcessComment | tk-auto-dl/src/llm_tts_service.py:173-222 | each of ja, en and es is translated exactly when the language is known and differs, voiced exactly when its translation is non-empty, and the reply is voiced exactly when present |
| CommentPipeline.ProcessWithAnswers | tk-auto-dl/src/llm_tts_service.py:173-222 | with the model's raw answers, the language is the detected one, each attempted slot holds the cleaned translation answer, and the reply clip exists exactly when a reply was generated |
| CommentPipeline.VoicedTextNormalized | tk-auto-dl/src/llm_tts_service.py:186-211 | every translation handed to speech synthesis is normalized: single spaces, none at either end |
| CommentPipeline.JapaneseCommentSkipsJapanese | tk-auto-dl/src/llm_tts_service.py:186-211 | a comment detected as Japanese is translated into English and Spanish only |
| CommentPipeline.UnknownLanguageOnlyReplies | tk-auto-dl/src/llm_tts_service.py:186-204 | with no detected language nothing is translated |
| WithoutReImport.CleanTextAsWritten | tk-auto-dl/src/llm_tts_service.py:85 | as shipped, cleaning always raises `NameError` |
| WithoutReImport.DetectLanguageAsWritten | tk-auto-dl/src/llm_tts_service.py:70-76 | as shipped, detection completes only for an empty answer, and then agrees with the intended one |
| WithoutReImport.GenerateReplyAsWritten | tk-auto-dl/src/llm_tts_service.py:103-112 | as shipped, reply generation completes only for an empty answer, and then agrees with the intended one |
| WithoutReImport.TranslateTextAsWritten | tk-auto-dl/src/llm_tts_service.py:119-122 | as shipped, translation completes only for an empty answer, and then agrees with the intended one |
| WithoutReImport.BlockAsWritten | tk-auto-dl/src/llm_tts_service.py:186-211 | as shipped, a translation block completes only when it is skipped or the answer is empty |
| WithoutReImport.ProcessAsWritten | tk-auto-dl/src/llm_tts_service.py:173-222 | as shipped, the handler completes exactly when both the language answer and the reply answer are empty, and then agrees with the intended handler |
| WithoutReImport.FencedAnswerRaises | tk-auto-dl/src/llm_tts_service.py:72 | an answer "```ja```" makes the shipped handler raise, while the intended one detects `ja` |
| CheckpointOrder.Insert | netlify/functions/app.py:69 | inserting into a sorted list keeps it sorted and adds exactly the new entry |
| CheckpointOrder.SortEntries | netlify/functions/app.py:69 | the sort returns a permutation, sorted newest first with ties in input order |
| CheckpointOrder.SortCheckpoints | netlify/functions/app.py:69 | the display order lists every checkpoint exactly once, later times first, equal times in input order |
| CheckpointOrder.SortedListsEveryCheckpoint | netlify/functions/app.py:69 | every input checkpoint appears in the display order |
| CheckpointOrder.FirstIsNewest | netlify/functions/app.py:69 | no checkpoint has a later time than the first one listed |
| CheckpointOrder.EqualTimesKeepOrder | netlify/functions/app.py:69 | checkpoints with equal times keep their input order |
| Tracking.DisplayStatus | netlify/functions/app.py:52-62 | the tag, `Pending` when missing, is lower-cased and looked up in the seven-entry label table, in which the five tracked tags get a class of their own and `attemptfail` and `exception` get the unknown class; a tag in the table gets its entry, any other tag the unknown label and class, so the class is a known one exactly for the five tracked tags |
| Tracking.StatusIgnoresCase | netlify/functions/app.py:52 | tags differing only in letter case display alike |
| Tracking.MissingTagIsPending | netlify/functions/app.py:52-54 | a missing tag displays as unshipped |
| Tracking.PlaceOf | netlify/functions/app.py:86 | a truthy location is shown as it is; otherwise a truthy city; otherwise `N/A`; the result is never falsy |
| Tracking.HistoryItemOf | netlify/functions/app.py:70-88 | the timestamp is the reformatted time when it parses and the raw time otherwise; the location is chosen as `PlaceOf` chooses it (location, else city, else `N/A`); the description is the message or empty |
| Tracking.FirstPosition | netlify/functions/app.py:91-96 | the position comes from the first listed checkpoint with a two-element coordinate list, swapped to latitude then longitude; none when no checkpoint has one |
| Tracking.FormatResponse | netlify/functions/app.py:41-113 | no tracking data gives nothing; otherwise status, item name, a history with one entry per checkpoint in display order, the first position, and `last_updated` from the newest entry, else `updated_at`, else now |
| Tracking.LastUpdatedIsNewest | netlify/functions/app.py:99-100 | with checkpoints, `last_updated` is the timestamp of a checkpoint that no other checkpoint is later than |

## Left out

- Concurrency: the asyncio lock, the status-update event and `wait_for_status_update` are not modelled. Every coroutine runs its whole critical section atomically, which is what the lock provides.
- Logging, and the counters that only feed log lines.
- JSON encoding and file I/O. The status file is "missing, corrupt, or a decoded snapshot". A file that decodes but has the wrong shape, which makes the load raise, is not modelled. A record without a `status` key is not modelled either.
- Store.Start: the load is modelled as finished before the first command. In the code `__init__` only schedules `_load_status` with `asyncio.create_task` (status_manager.py:30). A command that takes the lock before the load runs works on the empty state, and its save overwrites the file with that state. This startup race is not modelled.
- Store.AfterWrite: only `IOError` is caught by `_save_status`. Another exception from `json.dump` (an unserialisable value) would propagate to the caller; values are JSON scalars in the model, so it cannot arise.
- ISO timestamp parsing and the wall clock. A record's timestamp carries the raw string and its parsed date as one value. `now`, `today`, the fallback `last_updated` string and the `strftime` reformatting of checkpoint times are parameters.
- Python `int` versus `float`: both are `Num`, so a stored `0` and `0.0` are the same value.
- `PyText.Lower` and `PyText.IsWordChar`: only ASCII letters are lowered, and only ASCII letters, digits and `_` count as `\w`. Python applies full Unicode case mapping and Unicode word characters.
- Payload shapes that make `format_aftership_response` raise are not modelled: a `null` tag, a `null` checkpoint list, a non-dict `data`, or a `null` checkpoint time among two or more checkpoints (the sort then compares `None`). A lone checkpoint with a `null` time does not raise: the parse error is caught, and its timestamp and `last_updated` are `null`, which the model cannot represent. Tags and times are strings or missing. Coordinates are a list or absent; a non-list value is treated as absent, which `isinstance` also rejects.
- The network calls to the language model, AfterShip and the speech service are parameters. So are the prompts, voice ids and file names. The item-name store is a map parameter, and its loading and saving are not modelled.
- `tracking_item_names` persistence, the Flask routes and the rest of `app.py` are outside the modelled core. So are `call_llm` and `text_to_speech` in `llm_tts_service.py`.

## Findings

| source | as written | input that shows it | evidently intended | confidence | as-written member | corrected member |
|---|---|---|---|---|---|---|
| tk-auto-dl/src/llm_tts_service.py:1-5 | the module uses `re.search` (line 72) and `re.sub` (lines 85 and 87) but never imports `re`, so `get_language`, `clean_text_for_tts`, `generate_reply`, `translate_text` and `process_comment_for_audio` raise `NameError` for any non-empty model answer | the language model answers "```ja```" | `import re` at the top, as `status_manager.py` has it; detection then yields `ja` and processing completes | high (not executed) | WithoutReImport.ProcessAsWritten | CommentPipeline.ProcessWithAnswers |

=== FILE: basics.dfy ===
/** Small failure-carrying datatypes shared by every module of the model. */
module Basics {

  /** A value that may be absent: a missing dictionary key or a `None` return. */
  datatype Option<+T> = None | Some(value: T) {

    /** The carried value, or `default` when absent (Python's `dict.get(k, default)`). */
    function GetOr(default: T): T {
      match this
      case Some(v) => v
      case None => default
    }
  }

  /** The outcome of Python code that either returns a value or raises. */
  datatype Result<+T> = Ok(value: T) | Raised(error: string)
}

=== FILE: checkpoint_order.dfy ===
/**
  The order `format_aftership_response` lists checkpoints in:
  `sorted(checkpoints, key=checkpoint_time-or-'', reverse=True)`. Python's
  sort is stable even when reversed, so checkpoints with equal times keep
  their original relative order. Each checkpoint is tagged with its
  original position, which turns that order into a strict total one.
 */
module CheckpointOrder {
  import opened Basics
  import opened JsonValue
  import opened PyText

  /** One element of the AfterShip `checkpoints` list; `None` marks a missing key. */
  datatype Checkpoint = Checkpoint(
    time: Option<string>,
    location: Option<Value>,
    city: Option<Value>,
    message: Option<Value>,
    coordinates: Option<seq<Value>>)

  /** The sort key: `checkpoint_time`, or `''` when missing. */
  function Key(cp: Checkpoint): string {
    cp.time.GetOr("")
  }

  /** A checkpoint together with its position in the input list. */
  datatype Entry = Entry(index: nat, cp: Checkpoint)

  /** `a` is listed before `b`: a later time, or the same time and an earlier position. */
  predicate Before(a: Entry, b: Entry) {
    || LexLess(Key(b.cp), Key(a.cp))
    || (Key(a.cp) == Key(b.cp) && a.index < b.index)
  }

  predicate Sorted(s: seq<Entry>) {
    forall i, j :: 0 <= i < j < |s| ==> Before(s[i], s[j])
  }

  /** No two entries share a position. */
  predicate DistinctIndices(s: seq<Entry>) {
    forall i, j :: 0 <= i < j < |s| ==> s[i].index != s[j].index
  }

  /** The input list with positions attached. */
  function Tagged(cps: seq<Checkpoint>): (r: seq<Entry>)
    ensures |r| == |cps|
    ensures forall i :: 0 <= i < |r| ==> r[i] == Entry(i, cps[i])
    ensures DistinctIndices(r)
  {
    seq(|cps|, i requires 0 <= i < |cps| => Entry(i, cps[i]))
  }

  lemma BeforeTransitive(a: Entry, b: Entry, c: Entry)
    requires Before(a, b) && Before(b, c)
    ensures Before(a, c)
  {
    if LexLess(Key(b.cp), Key(a.cp)) && LexLess(Key(c.cp), Key(b.cp)) {
      LexLessTransitive(Key(c.cp), Key(b.cp), Key(a.cp));
    }
  }

  /** Of two entries at different positions, one is listed first. */
  lemma BeforeTotal(a: Entry, b: Entry)
    requires a.index != b.index
    ensures Before(a, b) || Before(b, a)
  {
    if Key(a.cp) != Key(b.cp) {
      LexLessTotal(Key(a.cp), Key(b.cp));
    }
  }

  /** An entry listed first was not stamped earlier. */
  lemma BeforeNotOlder(a: Entry, b: Entry)
    requires Before(a, b)
    ensures !LexLess(Key(a.cp), Key(b.cp))
  {
    if LexLess(Key(a.cp), Key(b.cp)) {
      if LexLess(Key(b.cp), Key(a.cp)) {
        LexLessTransitive(Key(a.cp), Key(b.cp), Key(a.cp));
      }
      LexLessIrreflexive(Key(a.cp));
    }
  }

  /** Inserts `x` into a sorted list in front of the first entry it precedes. */
  function Insert(x: Entry, s: seq<Entry>): (r: seq<Entry>)
    ensures multiset(r) == multiset(s) + multiset{x}
    ensures Sorted(s) && (forall e :: e in s ==> e.index != x.index) ==> Sorted(r)
  {
    if s == [] then [x]
    else if Before(x, s[0]) then
      assert Sorted(s) ==> forall j :: 0 < j < |s| ==> Before(s[0], s[j]);
      InsertFront(x, s);
      [x] + s
    else
      var rest := Insert(x, s[1..]);
      assert s == [s[0]] + s[1..];
      InsertBehind(x, s, rest);
      [s[0]] + rest
  }

  lemma InsertFront(x: Entry, s: seq<Entry>)
    requires s != [] && Before(x, s[0])
    ensures Sorted(s) ==> Sorted([x] + s)
  {
    if Sorted(s) {
      forall i, j | 0 <= i < j < |[x] + s| ensures Before(([x] + s)[i], ([x] + s)[j]) {
        if i == 0 && j > 1 {
          BeforeTransitive(x, s[0], s[j - 1]);
        }
      }
    }
  }

  lemma InsertBehind(x: Entry, s: seq<Entry>, rest: seq<Entry>)
    requires s != [] && !Before(x, s[0])
    requires multiset(rest) == multiset(s[1..]) + multiset{x}
    requires Sorted(s[1..]) && (forall e :: e in s[1..] ==> e.index != x.index) ==> Sorted(rest)
    ensures Sorted(s) && (forall e :: e in s ==> e.index != x.index) ==> Sorted([s[0]] + rest)
  {
    if Sorted(s) && (forall e :: e in s ==> e.index != x.index) {
      assert s[0] in s;
      BeforeTotal(x, s[0]);
      assert Sorted(s[1..]) by {
        forall i, j | 0 <= i < j < |s[1..]| ensures Before(s[1..][i], s[1..][j]) {
          assert s[1..][i] == s[i + 1] && s[1..][j] == s[j + 1];
        }
      }
      forall e | e in rest ensures Before(s[0], e) {
        assert e in multiset(rest);
        if e != x {
          assert e in multiset(s[1..]);
          var j :| 0 <= j < |s[1..]| && s[1..][j] == e;
          assert s[j + 1] == e;
        }
      }
      forall i, j | 0 <= i < j < |[s[0]] + rest| ensures Before(([s[0]] + rest)[i], ([s[0]] + rest)[j]) {
        if i == 0 {
          assert ([s[0]] + rest)[j] == rest[j - 1];
          assert rest[j - 1] in rest;
        } else {
          assert ([s[0]] + rest)[i] == rest[i - 1] && ([s[0]] + rest)[j] == rest[j - 1];
        }
      }
    }
  }

  /** Insertion sort by `Before`. */
  function SortEntries(s: seq<Entry>): (r: seq<Entry>)
    ensures multiset(r) == multiset(s)
    ensures DistinctIndices(s) ==> Sorted(r)
  {
    if s == [] then []
    else
      var rest := SortEntries(s[1..]);
      assert s == [s[0]] + s[1..];
      SortStep(s, rest);
      Insert(s[0], rest)
  }

  lemma SortStep(s: seq<Entry>, rest: seq<Entry>)
    requires s != []
    requires multiset(rest) == multiset(s[1..])
    requires DistinctIndices(s[1..]) ==> Sorted(rest)
    ensures DistinctIndices(s) ==> Sorted(rest) && forall e :: e in rest ==> e.index != s[0].index
  {
    if DistinctIndices(s) {
      assert DistinctIndices(s[1..]) by {
        forall i, j | 0 <= i < j < |s[1..]| ensures s[1..][i].index != s[1..][j].index {
          assert s[1..][i] == s[i + 1] && s[1..][j] == s[j + 1];
        }
      }
      forall e | e in rest ensures e.index != s[0].index {
        assert e in multiset(s[1..]);
        var j :| 0 <= j < |s[1..]| && s[1..][j] == e;
        assert s[j + 1] == e;
      }
    }
  }

  /**
    The checkpoints in display order: each input checkpoint exactly once,
    later times first, equal times in input order.
   */
  function SortCheckpoints(cps: seq<Checkpoint>): (r: seq<Entry>)
    ensures multiset(r) == multiset(Tagged(cps))
    ensures Sorted(r)
    ensures |r| == |cps|
  {
    var r := SortEntries(Tagged(cps));
    assert |r| == |multiset(r)|;
    r
  }

  /** Every input checkpoint is listed, at some position. */
  lemma SortedListsEveryCheckpoint(cps: seq<Checkpoint>, i: nat)
    requires i < |cps|
    ensures Entry(i, cps[i]) in SortCheckpoints(cps)
  {
    var t := Tagged(cps);
    assert t[i] == Entry(i, cps[i]);
    assert Entry(i, cps[i]) in multiset(t);
    assert Entry(i, cps[i]) in multiset(SortCheckpoints(cps));
  }

  /** The first listed checkpoint carries the latest time of all. */
  lemma FirstIsNewest(cps: seq<Checkpoint>, i: nat)
    requires i < |cps|
    ensures !LexLess(Key(SortCheckpoints(cps)[0].cp), Key(cps[i]))
  {
    var r := SortCheckpoints(cps);
    SortedListsEveryCheckpoint(cps, i);
    var k :| 0 <= k < |r| && r[k] == Entry(i, cps[i]);
    if k == 0 {
      LexLessIrreflexive(Key(cps[i]));
    } else {
      BeforeNotOlder(r[0], r[k]);
    }
  }

  /** Checkpoints with equal times keep their input order. */
  lemma EqualTimesKeepOrder(cps: seq<Checkpoint>, i: nat, j: nat)
    requires i < j < |cps| && Key(cps[i]) == Key(cps[j])
    ensures exists p, q :: (0 <= p < q < |cps|
      && SortCheckpoints(cps)[p] == Entry(i, cps[i]) && SortCheckpoints(cps)[q] == Entry(j, cps[j]))
  {
    var r := SortCheckpoints(cps);
    SortedListsEveryCheckpoint(cps, i);
    SortedListsEveryCheckpoint(cps, j);
    var p :| 0 <= p < |r| && r[p] == Entry(i, cps[i]);
    var q :| 0 <= q < |r| && r[q] == Entry(j, cps[j]);
    LexLessIrreflexive(Key(cps[i]));
    assert !Before(r[q], r[p]);
    assert p != q;
    assert !(q < p);
  }
}

=== FILE: comment_pipeline.dfy ===
/**
  `process_comment_for_audio`: detect the comment's language, translate it
  into each of Japanese, English and Spanish that differs from it, voice
  every non-empty translation, then generate and voice a reply. The awaited
  calls are parameters: `language` is what `get_language` returned,
  `translated(t)` what `translate_text` returned for target `t`, `reply`
  what `generate_reply` returned, and `speak(k, text)` the saved audio path
  (or `None`) for clip `k`. `ProcessWithAnswers` plugs in the text module's
  models of the first three.
 */
module CommentPipeline {
  import opened Basics
  import opened TtsText

  /** A translation target. */
  datatype Target = Ja | En | Es

  /** The language code the detected language is compared against. */
  function Code(t: Target): string {
    match t
    case Ja => "ja"
    case En => "en"
    case Es => "es"
  }

  /** An audio clip: one per translation target, and the reply. */
  datatype Clip = Voice(target: Target) | ReplyVoice

  /**
    What the result dictionary holds for one target: no `translated_<t>`
    key; the key only (the translation is missing or empty); or the key
    together with `audio_path_<t>`.
   */
  datatype Slot =
    | Skipped
    | Attempted(translated: Option<string>)
    | Voiced(text: string, path: Option<string>)

  /** The value under `translated_<t>`, when the key is present. */
  function TextOf(s: Slot): Option<string>
    requires !s.Skipped?
  {
    if s.Attempted? then s.translated else Some(s.text)
  }

  /**
    The result dictionary. `replyAudio` is `None` when there is no
    `audio_path_reply` key.
   */
  datatype Outcome = Outcome(
    commentId: string,
    original: string,
    language: Option<string>,
    ja: Slot,
    en: Slot,
    es: Slot,
    reply: Option<string>,
    replyAudio: Option<Option<string>>)

  function SlotOf(o: Outcome, t: Target): Slot {
    match t
    case Ja => o.ja
    case En => o.en
    case Es => o.es
  }

  /** A Python-truthy optional string. */
  predicate Present(v: Option<string>) {
    v.Some? && v.value != ""
  }

  /** The comment is translated into `target` only when its language is known and different. */
  predicate Attempts(language: Option<string>, target: Target) {
    Present(language) && language.value != Code(target)
  }

  /**
    One of the three translation blocks: translate when the language is
    known and differs from the target, and voice the translation when it is
    non-empty.
   */
  function TranslateBlock(language: Option<string>, target: Target, translated: Option<string>,
                          speak: (Clip, string) -> Option<string>): (s: Slot)
    ensures s.Skipped? <==> !Attempts(language, target)
    ensures !s.Skipped? ==> TextOf(s) == translated
    ensures s.Voiced? <==> !s.Skipped? && Present(TextOf(s))
    ensures s.Voiced? ==> s.path == speak(Voice(target), s.text)
  {
    if Attempts(language, target) then
      if Present(translated) then Voiced(translated.value, speak(Voice(target), translated.value))
      else Attempted(translated)
    else Skipped
  }

  /** The reply block: a generated, non-empty reply is voiced. */
  function ReplyBlock(reply: Option<string>, speak: (Clip, string) -> Option<string>): (a: Option<Option<string>>)
    ensures a.Some? <==> Present(reply)
    ensures a.Some? ==> a.value == speak(ReplyVoice, reply.value)
  {
    if Present(reply) then Some(speak(ReplyVoice, reply.value)) else None
  }

  /** `process_comment_for_audio` over the results of the calls it awaits. */
  function ProcessComment(commentId: string, text: string,
                          language: Option<string>,
                          translated: Target -> Option<string>,
                          reply: Option<string>,
                          speak: (Clip, string) -> Option<string>): (o: Outcome)
    ensures o.commentId == commentId && o.original == text
    ensures o.language == language && o.reply == reply
    ensures forall t :: SlotOf(o, t).Skipped? <==> !Attempts(language, t)
    ensures forall t :: !SlotOf(o, t).Skipped? ==> TextOf(SlotOf(o, t)) == translated(t)
    ensures forall t :: SlotOf(o, t).Voiced? <==> !SlotOf(o, t).Skipped? && Present(translated(t))
    ensures forall t :: SlotOf(o, t).Voiced? ==> SlotOf(o, t).path == speak(Voice(t), SlotOf(o, t).text)
    ensures o.replyAudio.Some? <==> Present(reply)
    ensures o.replyAudio.Some? ==> o.replyAudio.value == speak(ReplyVoice, reply.value)
  {
    var ja := TranslateBlock(language, Ja, translated(Ja), speak);
    var en := TranslateBlock(language, En, translated(En), speak);
    var es := TranslateBlock(language, Es, translated(Es), speak);
    Outcome(commentId, text, language, ja, en, es, reply, ReplyBlock(reply, speak))
  }

  /**
    The whole handler with the model's raw answers: `answers(t)` is the
    answer to the translation prompt for `t`. The reply clip exists exactly
    when a reply was generated.
   */
  function ProcessWithAnswers(commentId: string, text: string,
                              languageAnswer: Option<string>,
                              answers: Target -> Option<string>,
                              replyAnswer: Option<string>,
                              speak: (Clip, string) -> Option<string>): (o: Outcome)
    ensures o.language == DetectLanguage(languageAnswer)
    ensures o.reply == GenerateReply(replyAnswer)
    ensures o.replyAudio.Some? <==> o.reply.Some?
    ensures forall t :: !SlotOf(o, t).Skipped? ==> TextOf(SlotOf(o, t)) == TranslateText(answers(t))
  {
    var translated := (t: Target) => TranslateText(answers(t));
    var reply := GenerateReply(replyAnswer);
    assert Present(reply) <==> reply.Some?;
    ProcessComment(commentId, text, DetectLanguage(languageAnswer), translated, reply, speak)
  }

  /** Every translation clip voices normalized text: single spaces, none at either end. */
  lemma VoicedTextNormalized(commentId: string, text: string,
                             languageAnswer: Option<string>,
                             answers: Target -> Option<string>,
                             replyAnswer: Option<string>,
                             speak: (Clip, string) -> Option<string>)
    ensures var o := ProcessWithAnswers(commentId, text, languageAnswer, answers, replyAnswer, speak);
      forall t :: SlotOf(o, t).Voiced? ==> Normalized(SlotOf(o, t).text)
  {
    var o := ProcessWithAnswers(commentId, text, languageAnswer, answers, replyAnswer, speak);
    forall t | SlotOf(o, t).Voiced?
      ensures Normalized(SlotOf(o, t).text)
    {
      var a := TranslateText(answers(t));
      assert TextOf(SlotOf(o, t)) == a;
      assert a.Some? && SlotOf(o, t).text == a.value;
    }
  }

  /** A Japanese comment is translated into English and Spanish only. */
  lemma JapaneseCommentSkipsJapanese(commentId: string, text: string,
                                     answers: Target -> Option<string>,
                                     replyAnswer: Option<string>,
                                     speak: (Clip, string) -> Option<string>)
    ensures var o := ProcessWithAnswers(commentId, text, Some(Fence + "ja" + Fence), answers, replyAnswer, speak);
      o.ja.Skipped? && !o.en.Skipped? && !o.es.Skipped?
  {
    FencedCodeRoundTrip("ja");
    assert Code(En)[0] != 'j' && Code(Es)[0] != 'j';
  }

  /** With no detected language nothing is translated and only the reply may be voiced. */
  lemma UnknownLanguageOnlyReplies(commentId: string, text: string,
                                   translated: Target -> Option<string>,
                                   reply: Option<string>,
                                   speak: (Clip, string) -> Option<string>)
    ensures var o := ProcessComment(commentId, text, None, translated, reply, speak);
      o.ja == Skipped && o.en == Skipped && o.es == Skipped
  {
  }
}

=== FILE: force_complete.dfy ===
/**
  The two administrative overrides of `StatusManager`:
  `mark_errors_as_completed` and `mark_specific_tasks_as_completed`. Both
  visit ids one by one and force a selected record to `completed`, add it
  to `processed_ids` and remove its first occurrence from the queue.
 */
module ForceComplete {
  import opened Basics
  import opened JsonValue
  import opened SeqUtil
  import opened TaskRecord
  import opened Ledger

  /** Which records a pass selects. */
  datatype Selector =
    /** `error`/`failed_download` records whose `last_updated` date parses and is on or before `today`. */
    | FailedOnOrBefore(today: Date)
    /** Any record that is not already `completed`. */
    | NotYetCompleted

  predicate Selects(sel: Selector, t: Task) {
    match sel
    case FailedOnOrBefore(today) =>
      IsFailed(t.status) && t.lastUpdated.date.Some? && OnOrBefore(t.lastUpdated.date.value, today)
    case NotYetCompleted => t.status != Completed
  }

  /** A completed record is never selected again, so a repeated id is harmless. */
  lemma CompletedNotSelected(sel: Selector, t: Task, now: Stamp)
    ensures !Selects(sel, AsCompleted(t, now))
  {
  }

  /** The effect of forcing one known id to `completed`. */
  function Force(s: State, id: Id, now: Stamp): State
    requires id in s.tasks
  {
    s.(tasks := s.tasks[id := AsCompleted(s.tasks[id], now)],
       processed := s.processed + {id},
       queue := RemoveFirst(s.queue, id))
  }

  /** One iteration: force the id when it is known and selected, otherwise leave the state. */
  function Visit(sel: Selector, s: State, id: Id, now: Stamp): State {
    if id in s.tasks && Selects(sel, s.tasks[id]) then Force(s, id, now) else s
  }

  /** The pass over `ids`. */
  function VisitAll(sel: Selector, ids: seq<Id>, s: State, now: Stamp): (r: State)
    ensures r.tasks.Keys == s.tasks.Keys
    ensures r.order == s.order && r.stop == s.stop
    decreases |ids|
  {
    if ids == [] then s
    else VisitAll(sel, ids[1..], Visit(sel, s, ids[0], now), now)
  }

  /** The ids of `ids` whose records the pass selects. */
  function Targets(sel: Selector, ids: seq<Id>, s: State): (ts: set<Id>)
    ensures forall k :: k in ts <==> k in ids && k in s.tasks && Selects(sel, s.tasks[k])
  {
    set k | k in ids && k in s.tasks && Selects(sel, s.tasks[k])
  }

  /**
    Reference definition: every target is completed and processed, the
    first occurrence of every target leaves the queue, nothing else changes.
   */
  function CompleteAll(s: State, ts: set<Id>, now: Stamp): State {
    s.(tasks := map k | k in s.tasks :: if k in ts then AsCompleted(s.tasks[k], now) else s.tasks[k],
       processed := s.processed + ts,
       queue := DropFirsts(s.queue, ts))
  }

  /** Forcing `x` and then completing the other targets is completing them all. */
  lemma ForceThenComplete(s: State, x: Id, ts: set<Id>, now: Stamp)
    requires x in s.tasks && x !in ts
    ensures CompleteAll(Force(s, x, now), ts, now) == CompleteAll(s, ts + {x}, now)
  {
    DropFirstsAfterRemove(s.queue, x, ts);
    var lhs := CompleteAll(Force(s, x, now), ts, now);
    var rhs := CompleteAll(s, ts + {x}, now);
    assert lhs.tasks == rhs.tasks;
  }

  /** Completing no target changes nothing. */
  lemma CompleteNone(s: State, now: Stamp)
    ensures CompleteAll(s, {}, now) == s
  {
    DropFirstsNone(s.queue);
    assert CompleteAll(s, {}, now).tasks == s.tasks;
  }

  /** Forcing a target removes it from the targets of the remaining ids and leaves the others. */
  lemma TargetsAfterForce(sel: Selector, rest: seq<Id>, s: State, x: Id, now: Stamp)
    requires x in s.tasks
    ensures Targets(sel, rest, Force(s, x, now)) == Targets(sel, rest, s) - {x}
  {
    CompletedNotSelected(sel, s.tasks[x], now);
  }

  /** The targets of a non-empty list. */
  lemma TargetsCons(sel: Selector, ids: seq<Id>, s: State)
    requires ids != []
    ensures Targets(sel, ids, s) ==
      Targets(sel, ids[1..], s) + (if ids[0] in s.tasks && Selects(sel, s.tasks[ids[0]]) then {ids[0]} else {})
  {
    assert ids == [ids[0]] + ids[1..];
  }

  /** One visit followed by the reference definition of the rest is the reference definition of the whole list. */
  lemma VisitThenComplete(sel: Selector, ids: seq<Id>, s: State, now: Stamp)
    requires ids != []
    ensures var s1 := Visit(sel, s, ids[0], now);
      CompleteAll(s1, Targets(sel, ids[1..], s1), now) == CompleteAll(s, Targets(sel, ids, s), now)
  {
    var x := ids[0];
    var rest := ids[1..];
    TargetsCons(sel, ids, s);
    if x in s.tasks && Selects(sel, s.tasks[x]) {
      var ts := Targets(sel, rest, s) - {x};
      TargetsAfterForce(sel, rest, s, x, now);
      ForceThenComplete(s, x, ts, now);
      assert ts + {x} == Targets(sel, ids, s);
    } else {
      assert Visit(sel, s, x, now) == s;
      assert Targets(sel, ids, s) == Targets(sel, rest, s);
    }
  }

  /** The visiting pass computes its reference definition, for ANY list of ids, repeated or not. */
  lemma {:induction false} VisitAllIsCompleteAll(sel: Selector, ids: seq<Id>, s: State, now: Stamp)
    ensures VisitAll(sel, ids, s, now) == CompleteAll(s, Targets(sel, ids, s), now)
    decreases |ids|
  {
    if ids == [] {
      CompleteNone(s, now);
      assert Targets(sel, ids, s) == {};
    } else {
      var s1 := Visit(sel, s, ids[0], now);
      VisitAllIsCompleteAll(sel, ids[1..], s1, now);
      VisitThenComplete(sel, ids, s, now);
    }
  }

  /** `mark_errors_as_completed`, with today's date as a parameter. */
  function MarkErrorsAsCompleted(s: State, today: Date, now: Stamp): (r: State)
    ensures r.tasks.Keys == s.tasks.Keys
    ensures r.order == s.order && r.stop == s.stop
  {
    VisitAll(FailedOnOrBefore(today), s.order, s, now)
  }

  /** `mark_specific_tasks_as_completed`. */
  function MarkSpecificTasksAsCompleted(s: State, ids: seq<Id>, now: Stamp): (r: State)
    ensures r.tasks.Keys == s.tasks.Keys
    ensures r.order == s.order && r.stop == s.stop
  {
    VisitAll(NotYetCompleted, ids, s, now)
  }

  /** What a completed pass guarantees for each id, in terms of the targets `ts`. */
  ghost predicate CompletedExactly(s: State, r: State, ts: set<Id>, now: Stamp) {
    && r.tasks.Keys == s.tasks.Keys
    && (forall k :: k in ts ==> k in s.tasks && r.tasks[k] == AsCompleted(s.tasks[k], now))
    && (forall k :: k in s.tasks && k !in ts ==> r.tasks[k] == s.tasks[k])
    && r.processed == s.processed + ts
    && (forall k :: multiset(r.queue)[k] == if k in ts && k in s.queue then multiset(s.queue)[k] - 1 else multiset(s.queue)[k])
    && Subseq(r.queue, s.queue)
    && (NoDup(s.queue) ==> NoDup(r.queue) && forall k :: k in ts ==> k !in r.queue)
  }

  /** `DropFirsts` keeps a duplicate-free queue duplicate-free and removes every target from it. */
  lemma {:induction false} DropFirstsUnique(q: seq<Id>, ts: set<Id>)
    requires NoDup(q)
    ensures NoDup(DropFirsts(q, ts))
    ensures forall k :: k in ts ==> k !in DropFirsts(q, ts)
  {
    if q != [] {
      var x := q[0];
      assert NoDup(q[1..]);
      assert x !in q[1..];
      if x in ts {
        DropFirstsUnique(q[1..], ts - {x});
        DropFirstsCount(q[1..], ts - {x});
        assert multiset(DropFirsts(q[1..], ts - {x}))[x] == 0;
      } else {
        DropFirstsUnique(q[1..], ts);
        DropFirstsCount(q[1..], ts);
        assert multiset(DropFirsts(q[1..], ts))[x] == 0;
        assert DropFirsts(q, ts) == [x] + DropFirsts(q[1..], ts);
      }
    }
  }

  /**
    `mark_errors_as_completed`: exactly the failed records whose date is on
    or before today are completed; records with a missing or unparsable
    `last_updated` and every other record are unchanged.
   */
  lemma MarkErrorsExact(s: State, today: Date, now: Stamp)
    requires Valid(s)
    ensures CompletedExactly(s, MarkErrorsAsCompleted(s, today, now), Targets(FailedOnOrBefore(today), s.order, s), now)
    ensures forall k :: k in Targets(FailedOnOrBefore(today), s.order, s) <==>
      k in s.tasks && IsFailed(s.tasks[k].status) && s.tasks[k].lastUpdated.date.Some?
      && OnOrBefore(s.tasks[k].lastUpdated.date.value, today)
  {
    VisitAllIsCompleteAll(FailedOnOrBefore(today), s.order, s, now);
    DropFirstsCount(s.queue, Targets(FailedOnOrBefore(today), s.order, s));
    DropFirstsSubseq(s.queue, Targets(FailedOnOrBefore(today), s.order, s));
    if NoDup(s.queue) {
      DropFirstsUnique(s.queue, Targets(FailedOnOrBefore(today), s.order, s));
    }
  }

  /**
    `mark_specific_tasks_as_completed`: the listed known ids that are not
    yet completed are completed; unknown ids and already-completed records
    are left as they are (an already-completed id is not added to
    `processed_ids`).
   */
  lemma MarkSpecificExact(s: State, ids: seq<Id>, now: Stamp)
    ensures CompletedExactly(s, MarkSpecificTasksAsCompleted(s, ids, now), Targets(NotYetCompleted, ids, s), now)
    ensures forall k :: k in Targets(NotYetCompleted, ids, s) <==> k in ids && k in s.tasks && s.tasks[k].status != Completed
  {
    VisitAllIsCompleteAll(NotYetCompleted, ids, s, now);
    DropFirstsCount(s.queue, Targets(NotYetCompleted, ids, s));
    DropFirstsSubseq(s.queue, Targets(NotYetCompleted, ids, s));
    if NoDup(s.queue) {
      DropFirstsUnique(s.queue, Targets(NotYetCompleted, ids, s));
    }
  }
}

=== FILE: json_value.dfy ===
/**
  Opaque scalar values as they travel through the JSON status file, the
  worker's progress reports and the AfterShip payload, together with the
  calendar dates and timestamps the ledger compares.
 */
module JsonValue {
  import opened Basics

  /** A JSON scalar. Python's int and float are both modelled by `Num`. */
  datatype Value = Null | Bool(b: bool) | Num(n: real) | Str(s: string)

  /** Python truthiness of a scalar: `None`, `False`, `0` and `''` are false. */
  predicate Truthy(v: Value) {
    match v
    case Null => false
    case Bool(b) => b
    case Num(n) => n != 0.0
    case Str(s) => s != ""
  }

  /** A calendar date, as returned by `datetime.date()`. */
  datatype Date = Date(year: int, month: int, day: int)

  /** `a <= b` on `datetime.date`: lexicographic on (year, month, day). */
  predicate OnOrBefore(a: Date, b: Date) {
    || a.year < b.year
    || (a.year == b.year && a.month < b.month)
    || (a.year == b.year && a.month == b.month && a.day <= b.day)
  }

  /**
    A `last_updated` stamp: the raw ISO string as stored, and the date that
    `datetime.fromisoformat(raw).date()` yields, or `None` when the stamp is
    missing, empty or does not parse. Parsing itself is not modelled.
   */
  datatype Stamp = Stamp(raw: string, date: Option<Date>)
}

=== FILE: ledger.dfy ===
/**
  The state of `StatusManager` (tk-auto-dl/src/status_manager.py) and its
  single-item transitions. Every public coroutine of the manager runs under
  one lock, so each is modelled as one pure step `State -> State` (plus a
  result). The clock is the parameter `now`.
 */
module Ledger {
  import opened Basics
  import opened JsonValue
  import opened SeqUtil
  import opened TaskRecord

  /**
    `task_status`, its key insertion order (Python dictionaries iterate in
    that order, and the requeue operations depend on it), `download_queue`,
    `processed_ids` and `stop_requested`.
   */
  datatype State = State(
    tasks: map<Id, Task>,
    order: seq<Id>,
    queue: seq<Id>,
    processed: set<Id>,
    stop: bool)

  /** `order` lists every key of `tasks` exactly once, as a Python dict's keys do. */
  ghost predicate Valid(s: State) {
    && NoDup(s.order)
    && (forall id :: id in s.order <==> id in s.tasks)
  }

  /** Every stored status is held in its named form when it has one. */
  ghost predicate AllCanonical(s: State) {
    forall id :: id in s.tasks ==> CanonicalStatus(s.tasks[id].status)
  }

  /** The state `_reset_state` installs. */
  const Empty: State := State(map[], [], [], {}, false)

  /** `reset_state_async`: forget every task, the queue, the processed ids and the stop request. */
  function ResetState(s: State): (r: State)
    ensures r.tasks == map[] && r.queue == [] && r.processed == {} && !r.stop
    ensures Valid(r)
  {
    Empty
  }

  /** The id `add_download_task` reads, when it is present and non-empty. */
  predicate HasId(info: VideoInfo) {
    info.fc2Id.Some? && info.fc2Id.value != ""
  }

  /**
    True when `add_download_task` returns early for an id it has read: the
    existing record is completed or the id is processed, or the existing
    record is already pending or downloading. An id without a record is
    never skipped, even when it is in `processed_ids`.
   */
  predicate AlreadyTracked(s: State, id: Id) {
    && id in s.tasks
    && (|| s.tasks[id].status == Completed
        || id in s.processed
        || s.tasks[id].status == PendingDownload
        || s.tasks[id].status == Downloading)
  }

  /** `add_download_task`. */
  function AddDownloadTask(s: State, info: VideoInfo, now: Stamp): (r: State)
    ensures !HasId(info) ==> r == s
    ensures HasId(info) && AlreadyTracked(s, info.fc2Id.value) ==> r == s
    ensures HasId(info) && !AlreadyTracked(s, info.fc2Id.value) ==>
      var id := info.fc2Id.value;
      && r.tasks.Keys == s.tasks.Keys + {id}
      && r.tasks[id] == NewTask(info, now)
      && r.order == (if id in s.tasks then s.order else s.order + [id])
      && (forall k :: k in s.tasks && k != id ==> r.tasks[k] == s.tasks[k])
      && r.processed == s.processed - {id}
      && (id in s.queue ==> r.queue == s.queue)
      && (id !in s.queue ==> r.queue == s.queue + [id])
      && multiset(r.queue)[id] == (if id in s.queue then multiset(s.queue)[id] else 1)
      && r.stop == s.stop
  {
    if !HasId(info) then s
    else
      var id := info.fc2Id.value;
      if AlreadyTracked(s, id) then s
      else
        s.(tasks := s.tasks[id := NewTask(info, now)],
           order := if id in s.tasks then s.order else s.order + [id],
           processed := s.processed - {id},
           queue := if id in s.queue then s.queue else s.queue + [id])
  }

  /** What `get_next_download_task` hands the worker: the id, `title` and `video_page_url`. */
  datatype Claim = Claim(id: Id, title: Value, videoPageUrl: Value)

  /** `get_next_download_task`: the new state and the claim, if any. */
  function ClaimNext(s: State, now: Stamp): (r: (State, Option<Claim>))
    ensures s.stop || s.queue == [] ==> r == (s, None)
    ensures !s.stop && s.queue != [] ==>
      var head := s.queue[0];
      && r.0.queue == s.queue[1..]
      && r.0.processed == s.processed && r.0.order == s.order && !r.0.stop
      && (head !in s.tasks ==> r.1 == None && r.0.tasks == s.tasks)
      && (head in s.tasks ==>
            && r.1 == Some(Claim(head, s.tasks[head].title, s.tasks[head].url))
            && r.0.tasks.Keys == s.tasks.Keys
            && r.0.tasks[head] == Claimed(s.tasks[head], now)
            && r.0.tasks[head].status == Downloading
            && (forall k :: k in s.tasks && k != head ==> r.0.tasks[k] == s.tasks[k]))
  {
    if s.stop || s.queue == [] then (s, None)
    else
      var head := s.queue[0];
      var rest := s.queue[1..];
      if head in s.tasks then
        var t := s.tasks[head];
        (s.(tasks := s.tasks[head := Claimed(t, now)], queue := rest), Some(Claim(head, t.title, t.url)))
      else
        (s.(queue := rest), None)
  }

  /** The `status` a report carries, if it has one. */
  function ReportedStatus(rep: Report): Option<Value> {
    if "status" in rep then Some(rep["status"]) else None
  }

  /** `update_download_progress`. */
  function UpdateProgress(s: State, id: Id, rep: Report, now: Stamp): (r: State)
    ensures id !in s.tasks ==> r == s
    ensures id in s.tasks ==> r.tasks.Keys == s.tasks.Keys
    ensures id in s.tasks ==>
      var t := r.tasks[id];
      var st := ReportedStatus(rep);
      && (forall k :: k in s.tasks && k != id ==> r.tasks[k] == s.tasks[k])
      && r.queue == s.queue && r.order == s.order && r.stop == s.stop
      && t.downloadProgress == Some(if "percentage" in rep then rep["percentage"] else Num(0.0))
      && t.lastUpdated == now
      && t == Merge(s.tasks[id], rep, now).(status := t.status)
      && t.status == (if st == Some(Str("finished")) then Completed else if st.Some? then StatusOf(st.value) else s.tasks[id].status)
      && r.processed == (if st == Some(Str("finished")) || st == Some(Str("skipped")) then s.processed + {id} else s.processed)
  {
    if id !in s.tasks then s
    else
      var merged := Merge(s.tasks[id], rep, now);
      var st := ReportedStatus(rep);
      // `error` and `failed_download` only log; `paused` rewrites the status it already has
      var t := if st == Some(Str("finished")) then merged.(status := Completed)
               else if st == Some(Str("paused")) then merged.(status := Paused)
               else merged;
      var marks := st == Some(Str("finished")) || st == Some(Str("skipped"));
      s.(tasks := s.tasks[id := t], processed := if marks then s.processed + {id} else s.processed)
  }

  /**
    The reported statuses `update_download_progress` singles out: `finished`
    completes the record and `skipped` skips it, both marking it processed;
    `error`, `failed_download` and `paused` are stored without marking it.
   */
  lemma ReportedStatuses(s: State, id: Id, rep: Report, now: Stamp)
    requires id in s.tasks
    ensures var r := UpdateProgress(s, id, rep, now);
      var st := ReportedStatus(rep);
      && (st == Some(Str("finished")) ==> r.tasks[id].status == Completed && id in r.processed)
      && (st == Some(Str("skipped")) ==> r.tasks[id].status == Skipped && id in r.processed)
      && (st == Some(Str("error")) ==> r.tasks[id].status == Error && r.processed == s.processed)
      && (st == Some(Str("failed_download")) ==> r.tasks[id].status == FailedDownload && r.processed == s.processed)
      && (st == Some(Str("paused")) ==> r.tasks[id].status == Paused && r.processed == s.processed)
  {
  }

  /** `set_download_local_path`: attach a path without touching the status. */
  function SetLocalPath(s: State, id: Id, path: string, now: Stamp): (r: State)
    ensures id !in s.tasks ==> r == s
    ensures id in s.tasks ==>
      && r.tasks.Keys == s.tasks.Keys
      && r.tasks[id].localPath == Str(path)
      && r.tasks[id].lastUpdated == now
      && r.tasks[id].status == s.tasks[id].status
      && r.tasks[id].(localPath := s.tasks[id].localPath, lastUpdated := s.tasks[id].lastUpdated) == s.tasks[id]
      && (forall k :: k in s.tasks && k != id ==> r.tasks[k] == s.tasks[k])
      && r.queue == s.queue && r.processed == s.processed && r.order == s.order && r.stop == s.stop
  {
    if id !in s.tasks then s
    else s.(tasks := s.tasks[id := s.tasks[id].(localPath := Str(path), lastUpdated := now)])
  }

  /** `request_stop`: raise the stop flag; nothing else changes. */
  function RequestStop(s: State): (r: State)
    ensures r.stop
    ensures r.(stop := s.stop) == s
  {
    s.(stop := true)
  }

  /** `clear_stop_request`: lower the stop flag; nothing else changes. */
  function ClearStop(s: State): (r: State)
    ensures !r.stop
    ensures r.(stop := s.stop) == s
  {
    s.(stop := false)
  }
}

=== FILE: ledger_props.dfy ===
/**
  Properties of the ledger across operations: the invariant every
  transition keeps, and the behaviours the manager promises its callers
  (idempotent enqueue, claim exclusivity, stop gating, stale-error
  forgiveness, resume after restart).
 */
module LedgerProps {
  import opened Basics
  import opened JsonValue
  import opened SeqUtil
  import opened TaskRecord
  import opened Ledger
  import Requeue
  import ForceComplete
  import Store

  /**
    The invariant the transitions keep: the key order is well formed, the
    queue holds no id twice and every status is stored in its named form
    when it has one (so the status tests of the operations see it). It is
    NOT claimed that queued ids are
    pending or that the queue and the processed set are disjoint: the
    manager does not maintain either (see the two refutations below).
   */
  ghost predicate Inv(s: State) {
    Valid(s) && NoDup(s.queue) && AllCanonical(s)
  }

  lemma EmptyInv()
    ensures Inv(Empty)
  {
  }

  /** Putting distinct new ids in front of a queue that lacks them keeps it duplicate-free. */
  lemma {:induction false} PrependUnique(p: seq<Id>, q: seq<Id>)
    requires NoDup(p) && NoDup(q)
    requires forall k :: k in p ==> k !in q
    ensures NoDup(Reverse(p) + q)
  {
    var rp := Reverse(p);
    forall i, j | 0 <= i < j < |rp|
      ensures rp[i] != rp[j]
    {
      assert rp[i] == p[|p| - 1 - i] && rp[j] == p[|p| - 1 - j];
    }
    forall k | k in rp
      ensures k !in q
    {
      var i :| 0 <= i < |rp| && rp[i] == k;
      assert p[|p| - 1 - i] == k;
    }
    var r := rp + q;
    forall i, j | 0 <= i < j < |r|
      ensures r[i] != r[j]
    {
      if j < |rp| {
      } else if i >= |rp| {
        assert r[i] == q[i - |rp|] && r[j] == q[j - |rp|];
      } else {
        assert r[i] in rp && r[j] == q[j - |rp|];
      }
    }
  }

  lemma AddKeepsInv(s: State, info: VideoInfo, now: Stamp)
    requires Inv(s)
    ensures Inv(AddDownloadTask(s, info, now))
  {
    var r := AddDownloadTask(s, info, now);
    if HasId(info) && !AlreadyTracked(s, info.fc2Id.value) {
      var id := info.fc2Id.value;
      if id !in s.queue {
        PrependUnique([], s.queue);
        assert NoDup(s.queue + [id]);
      }
    }
  }

  lemma ClaimKeepsInv(s: State, now: Stamp)
    requires Inv(s)
    ensures Inv(ClaimNext(s, now).0)
  {
  }

  lemma UpdateKeepsInv(s: State, id: Id, rep: Report, now: Stamp)
    requires Inv(s)
    ensures Inv(UpdateProgress(s, id, rep, now))
  {
  }

  lemma SetLocalPathKeepsInv(s: State, id: Id, path: string, now: Stamp)
    requires Inv(s)
    ensures Inv(SetLocalPath(s, id, path, now))
  {
  }

  lemma ResumeKeepsInv(s: State, now: Stamp)
    requires Inv(s)
    ensures Inv(Requeue.ResumePausedTasks(s, now))
  {
    Requeue.ResumePausedExact(s, now);
    PrependUnique(Requeue.Picked(Requeue.ResumePaused, s.order, s), s.queue);
  }

  lemma ResetFailedKeepsInv(s: State, now: Stamp)
    requires Inv(s)
    ensures Inv(Requeue.ResetFailedTasks(s, now))
  {
    Requeue.ResetFailedExact(s, now);
    var s0 := s.(processed := s.processed - Requeue.FailedProcessed(s));
    PrependUnique(Requeue.Picked(Requeue.ResetFailed, s.order, s0), s.queue);
  }

  lemma MarkErrorsKeepsInv(s: State, today: Date, now: Stamp)
    requires Inv(s)
    ensures Inv(ForceComplete.MarkErrorsAsCompleted(s, today, now))
  {
    ForceComplete.MarkErrorsExact(s, today, now);
  }

  lemma MarkSpecificKeepsInv(s: State, ids: seq<Id>, now: Stamp)
    requires Inv(s)
    ensures Inv(ForceComplete.MarkSpecificTasksAsCompleted(s, ids, now))
  {
    ForceComplete.MarkSpecificExact(s, ids, now);
  }

  /** Every command of the manager keeps the invariant. */
  lemma ApplyKeepsInv(s: State, cmd: Store.Command, now: Stamp)
    requires Inv(s)
    ensures Inv(Store.Apply(s, cmd, now).0)
  {
    match cmd
    case AddTask(info) => AddKeepsInv(s, info, now);
    case ClaimNextTask => ClaimKeepsInv(s, now);
    case ReportProgress(id, rep) => UpdateKeepsInv(s, id, rep, now);
    case SetPath(id, path) => SetLocalPathKeepsInv(s, id, path, now);
    case StopRequest =>
    case ClearStopRequest =>
    case ResumePaused => ResumeKeepsInv(s, now);
    case ResetFailed => ResetFailedKeepsInv(s, now);
    case MarkErrors(today) => MarkErrorsKeepsInv(s, today, now);
    case MarkSpecific(ids) => MarkSpecificKeepsInv(s, ids, now);
    case ResetAll =>
  }

  /** Enqueueing the same item twice has the effect of enqueueing it once. */
  lemma EnqueueIdempotent(s: State, info: VideoInfo, now1: Stamp, now2: Stamp)
    ensures AddDownloadTask(AddDownloadTask(s, info, now1), info, now2) == AddDownloadTask(s, info, now1)
  {
  }

  /** On a duplicate-free queue two consecutive claims never hand out the same id. */
  lemma ClaimExclusive(s: State, now1: Stamp, now2: Stamp)
    requires NoDup(s.queue)
    ensures var (s1, c1) := ClaimNext(s, now1);
      var (_, c2) := ClaimNext(s1, now2);
      c1.Some? && c2.Some? ==> c1.value.id != c2.value.id
  {
    var (s1, c1) := ClaimNext(s, now1);
    if c1.Some? && s1.queue != [] {
      assert s.queue[0] != s.queue[1];
    }
  }

  /**
    While the stop flag is raised no claim is made, whatever the queue
    holds; once it is cleared, the same queue yields its head.
   */
  lemma StopGating(s: State, now: Stamp)
    requires s.queue != [] && s.queue[0] in s.tasks
    ensures ClaimNext(RequestStop(s), now) == (RequestStop(s), None)
    ensures ClaimNext(ClearStop(RequestStop(s)), now).1 == Some(Claim(s.queue[0], s.tasks[s.queue[0]].title, s.tasks[s.queue[0]].url))
  {
  }

  /**
    The date-bounded override completes a failed record dated on or before
    today, takes it out of a duplicate-free queue and marks it processed.
   */
  lemma StaleErrorForgiven(s: State, id: Id, today: Date, now: Stamp)
    requires Valid(s) && id in s.tasks && IsFailed(s.tasks[id].status)
    requires s.tasks[id].lastUpdated.date.Some? && OnOrBefore(s.tasks[id].lastUpdated.date.value, today)
    ensures var r := ForceComplete.MarkErrorsAsCompleted(s, today, now);
      && r.tasks[id].status == Completed
      && r.tasks[id].downloadProgress == Some(Num(100.0))
      && id in r.processed
      && (NoDup(s.queue) ==> id !in r.queue)
  {
    ForceComplete.MarkErrorsExact(s, today, now);
  }

  /** A record dated after today, or with no parsable date, is left exactly as it was. */
  lemma RecentErrorKept(s: State, id: Id, today: Date, now: Stamp)
    requires Valid(s) && id in s.tasks
    requires s.tasks[id].lastUpdated.date.None? || !OnOrBefore(s.tasks[id].lastUpdated.date.value, today)
    ensures ForceComplete.MarkErrorsAsCompleted(s, today, now).tasks[id] == s.tasks[id]
  {
    ForceComplete.MarkErrorsExact(s, today, now);
  }

  /**
    A task left paused before a restart is, after the manager reloads
    the file and resumes, pending and ahead of everything that was queued.
   */
  lemma ResumeAfterRestart(m: Store.Manager, id: Id, now: Stamp)
    requires Store.Synced(m) && Valid(m.mem)
    requires id in m.mem.tasks && m.mem.tasks[id].status == Paused && id !in m.mem.queue
    ensures var r := Requeue.ResumePausedTasks(Store.Start(m.disk).mem, now);
      && r.tasks[id].status == PendingDownload
      && exists i :: 0 <= i < |r.queue| - |m.mem.queue| && r.queue[i] == id
  {
    var s := Store.Start(m.disk).mem;
    Requeue.ResumePausedExact(s, now);
    var p := Requeue.Picked(Requeue.ResumePaused, s.order, s);
    var r := Requeue.ResumePausedTasks(s, now);
    assert id in p;
    var j :| 0 <= j < |p| && p[j] == id;
    assert r.queue[|p| - 1 - j] == id;
  }

  /**
    The manager does not keep the queue and the processed set disjoint: a
    `finished` report for an id that is still queued (for example after a
    reset put it back) leaves it in both.
   */
  lemma QueueAndProcessedMayOverlap(t: Task, now: Stamp)
    ensures var s := State(map["a" := t], ["a"], ["a"], {}, false);
      var r := UpdateProgress(s, "a", map["status" := Str("finished")], now);
      "a" in r.queue && "a" in r.processed && r.tasks["a"].status == Completed
  {
  }

  /** Nor does it keep every queued id pending: a queued paused id stays paused on resume. */
  lemma QueuedMayStayPaused(t: Task, now: Stamp)
    requires t.status == Paused
    ensures var s := State(map["a" := t], ["a"], ["a"], {}, false);
      var r := Requeue.ResumePausedTasks(s, now);
      r.queue == ["a"] && r.tasks["a"].status == Paused
  {
    var s := State(map["a" := t], ["a"], ["a"], {}, false);
    Requeue.ResumePausedExact(s, now);
    assert Requeue.Picked(Requeue.ResumePaused, s.order, s) == [];
  }
}

=== FILE: py_text.dfy ===
/**
  The pieces of Python's string semantics the model relies on: `\s` and
  `str.isspace`, `str.strip()`, `str.lower()` (ASCII letters only), `\w`
  (ASCII word characters only) and the code-point ordering `<` on strings.
 */
module PyText {

  /** `str.isspace()`, which is also what `\s` matches in a `str` pattern. */
  predicate IsSpace(c: char) {
    || c == ' ' || c == '\t' || c == '\n' || c == '\r'
    || c == '\U{000B}' || c == '\U{000C}'
    || ('\U{001C}' <= c <= '\U{001F}')
    || c == '\U{0085}' || c == '\U{00A0}' || c == '\U{1680}'
    || ('\U{2000}' <= c <= '\U{200A}')
    || c == '\U{2028}' || c == '\U{2029}' || c == '\U{202F}' || c == '\U{205F}' || c == '\U{3000}'
  }

  /** The characters of `s` that are not whitespace, in order. */
  function NonSpace(s: string): string {
    if s == [] then []
    else (if IsSpace(s[0]) then [] else [s[0]]) + NonSpace(s[1..])
  }

  lemma {:induction false} NonSpaceAppend(a: string, b: string)
    ensures NonSpace(a + b) == NonSpace(a) + NonSpace(b)
  {
    if a == [] {
      assert a + b == b;
    } else {
      assert (a + b)[0] == a[0];
      assert (a + b)[1..] == a[1..] + b;
      NonSpaceAppend(a[1..], b);
    }
  }

  /** Whitespace only. */
  predicate AllSpace(s: string) {
    forall i :: 0 <= i < |s| ==> IsSpace(s[i])
  }

  lemma {:induction false} NonSpaceOfSpaces(s: string)
    requires AllSpace(s)
    ensures NonSpace(s) == []
  {
    if s != [] {
      NonSpaceOfSpaces(s[1..]);
    }
  }

  /** `str.lstrip()`: drops the leading whitespace run. */
  function TrimLeft(s: string): (r: string)
    ensures |r| <= |s| && r == s[|s| - |r|..]
    ensures r == [] || !IsSpace(r[0])
    ensures AllSpace(s[..|s| - |r|])
    decreases |s|
  {
    if s != [] && IsSpace(s[0]) then
      var r := TrimLeft(s[1..]);
      assert s[|s| - |r|..] == s[1..][|s| - 1 - |r|..];
      assert s[..|s| - |r|] == [s[0]] + s[1..][..|s| - 1 - |r|];
      r
    else s
  }

  /** `str.rstrip()`: drops the trailing whitespace run. */
  function TrimRight(s: string): (r: string)
    ensures |r| <= |s| && r == s[..|r|]
    ensures r == [] || !IsSpace(r[|r| - 1])
    ensures AllSpace(s[|r|..])
    decreases |s|
  {
    if s != [] && IsSpace(s[|s| - 1]) then
      var r := TrimRight(s[..|s| - 1]);
      assert s[..|r|] == s[..|s| - 1][..|r|];
      assert s[|r|..] == s[..|s| - 1][|r|..] + [s[|s| - 1]];
      r
    else s
  }

  /** `r` is `s` with whitespace-only runs cut from its two ends, the rest kept in place. */
  ghost predicate TrimmedSlice(r: string, s: string) {
    exists a :: 0 <= a <= |s| - |r| && r == s[a..a + |r|] && AllSpace(s[..a]) && AllSpace(s[a + |r|..])
  }

  /** `str.strip()`: no whitespace at either end, nothing else removed. */
  function Strip(s: string): (r: string)
    ensures r == [] || (!IsSpace(r[0]) && !IsSpace(r[|r| - 1]))
    ensures NonSpace(r) == NonSpace(s)
    ensures TrimmedSlice(r, s)
  {
    StripKeepsNonSpace(s);
    var l := TrimLeft(s);
    var r := TrimRight(l);
    StripSlice(s, l, r);
    r
  }

  /** The trimmed ends of `str.strip()` are whitespace and the rest is kept in place. */
  lemma StripSlice(s: string, l: string, r: string)
    requires |l| <= |s| && l == s[|s| - |l|..] && AllSpace(s[..|s| - |l|])
    requires |r| <= |l| && r == l[..|r|] && AllSpace(l[|r|..])
    ensures TrimmedSlice(r, s)
  {
    var a := |s| - |l|;
    SuffixSlices(s, l, a, |r|);
    assert r == s[a..a + |r|] && AllSpace(s[..a]) && AllSpace(s[a + |r|..]);
  }

  /** Slices of a suffix are slices of the whole sequence, shifted. */
  lemma SuffixSlices<T>(s: seq<T>, l: seq<T>, a: nat, k: nat)
    requires a <= |s| && l == s[a..] && k <= |l|
    ensures s[a + k..] == l[k..] && s[a..a + k] == l[..k]
  {
  }

  lemma StripKeepsNonSpace(s: string)
    ensures NonSpace(TrimRight(TrimLeft(s))) == NonSpace(s)
  {
    TrimLeftKeepsNonSpace(s);
    TrimRightKeepsNonSpace(TrimLeft(s));
  }

  /** `lstrip` removes whitespace only. */
  lemma TrimLeftKeepsNonSpace(s: string)
    ensures NonSpace(TrimLeft(s)) == NonSpace(s)
  {
    var l := TrimLeft(s);
    var lead := s[..|s| - |l|];
    assert s == lead + l;
    NonSpaceAppend(lead, l);
    NonSpaceOfSpaces(lead);
  }

  /** `rstrip` removes whitespace only. */
  lemma TrimRightKeepsNonSpace(s: string)
    ensures NonSpace(TrimRight(s)) == NonSpace(s)
  {
    var r := TrimRight(s);
    var tail := s[|r|..];
    assert s == r + tail;
    NonSpaceAppend(r, tail);
    NonSpaceOfSpaces(tail);
    assert NonSpace(r) + [] == NonSpace(r);
  }

  /** `str.strip()` returns a contiguous piece of its argument. */
  lemma StripIsSlice(s: string) returns (a: nat)
    ensures a + |Strip(s)| <= |s| && Strip(s) == s[a..a + |Strip(s)|]
  {
    var l := TrimLeft(s);
    var r := TrimRight(l);
    a := |s| - |l|;
    assert Strip(s) == r;
    SuffixSlices(s, l, a, |r|);
  }

  /** A word of `str.split()`: non-empty and without whitespace. */
  predicate IsWord(w: string) {
    w != [] && forall i :: 0 <= i < |w| ==> !IsSpace(w[i])
  }

  /** The longest prefix of `s` without whitespace. */
  function TakeWord(s: string): (r: string)
    ensures |r| <= |s| && r == s[..|r|]
    ensures forall i :: 0 <= i < |r| ==> !IsSpace(r[i])
    ensures s != [] && !IsSpace(s[0]) ==> r != []
    ensures |r| < |s| ==> IsSpace(s[|r|])
    decreases |s|
  {
    if s == [] || IsSpace(s[0]) then []
    else
      var w := TakeWord(s[1..]);
      assert s[..|w| + 1] == [s[0]] + s[1..][..|w|];
      [s[0]] + w
  }

  /** The leading word of text with a visible first character starts with that character. */
  lemma TakeWordStep(s: string)
    requires s != [] && !IsSpace(s[0])
    ensures TakeWord(s) == [s[0]] + TakeWord(s[1..])
    ensures s[|TakeWord(s)|..] == s[1..][|TakeWord(s[1..])|..]
  {
  }

  /** Text is its leading word followed by the rest. */
  lemma TakeWordSplits(s: string)
    ensures s == TakeWord(s) + s[|TakeWord(s)|..]
  {
    var w := TakeWord(s);
    assert w == s[..|w|];
  }

  /** `str.split()` with no separator: the maximal whitespace-free runs, in order. */
  function Words(s: string): (r: seq<string>)
    ensures forall k :: 0 <= k < |r| ==> IsWord(r[k])
    decreases |s|
  {
    var t := TrimLeft(s);
    if t == [] then []
    else
      var w := TakeWord(t);
      var rest := Words(t[|w|..]);
      AllWordsCons(w, rest);
      [w] + rest
  }

  lemma AllWordsCons(w: string, ws: seq<string>)
    requires IsWord(w) && forall k :: 0 <= k < |ws| ==> IsWord(ws[k])
    ensures forall k :: 0 <= k < |[w] + ws| ==> IsWord(([w] + ws)[k])
  {
    forall k | 0 <= k < |[w] + ws|
      ensures IsWord(([w] + ws)[k])
    {
      if k > 0 {
        assert ([w] + ws)[k] == ws[k - 1];
      }
    }
  }

  /** `" ".join(ws)`. */
  function Join(ws: seq<string>): (r: string)
    ensures (forall k :: 0 <= k < |ws| ==> IsWord(ws[k])) ==>
      && (r == [] <==> ws == [])
      && (r != [] ==> !IsSpace(r[0]) && !IsSpace(r[|r| - 1]))
  {
    if ws == [] then []
    else if |ws| == 1 then ws[0]
    else
      assert forall k :: 1 <= k < |ws| ==> ws[1..][k - 1] == ws[k];
      ws[0] + " " + Join(ws[1..])
  }

  /** Joining a word in front of more words puts one space between them. */
  lemma JoinCons(w: string, ws: seq<string>)
    requires ws != []
    ensures Join([w] + ws) == w + " " + Join(ws)
  {
    var x := [w] + ws;
    assert x[0] == w && x[1..] == ws;
  }

  /** A word followed by whitespace (or nothing) is what `TakeWord` takes. */
  lemma {:induction false} TakeWordOf(w: string, rest: string)
    requires forall i :: 0 <= i < |w| ==> !IsSpace(w[i])
    requires rest == [] || IsSpace(rest[0])
    ensures TakeWord(w + rest) == w
    decreases |w|
  {
    if w == [] {
      assert w + rest == rest;
    } else {
      assert (w + rest)[1..] == w[1..] + rest;
      TakeWordOf(w[1..], rest);
      assert w == [w[0]] + w[1..];
    }
  }

  /** Text without leading whitespace splits into its first word and the rest. */
  lemma WordsOfWordHead(w: string, rest: string)
    requires IsWord(w) && (rest == [] || IsSpace(rest[0]))
    ensures Words(w + rest) == [w] + Words(rest)
  {
    var s := w + rest;
    assert s[0] == w[0];
    assert TrimLeft(s) == s;
    TakeWordOf(w, rest);
    assert s[|w|..] == rest;
  }

  /** Text starting with a visible character splits as its first word and the words of the rest. */
  lemma WordHead(s: string, w: string, d: string)
    requires s != [] && !IsSpace(s[0]) && w == TakeWord(s) && d == s[|w|..]
    ensures s == w + d && IsWord(w) && (d == [] || IsSpace(d[0]))
    ensures Words(s) == [w] + Words(d)
  {
    TakeWordSplits(s);
    WordsOfWordHead(w, d);
  }

  /** Text starting with whitespace has the words of what follows its leading run. */
  lemma SpaceHead(s: string, t: string)
    requires s != [] && IsSpace(s[0]) && t == TrimLeft(s)
    ensures |t| < |s| && Words(s) == Words(t)
    ensures t != [] ==> t[|t| - 1] == s[|s| - 1]
    ensures t == [] ==> Words(t) == []
  {
    WordsAfterSpace(s);
    assert t == TrimLeft(s[1..]);
    TrimLeftLast(s);
  }

  /** `lstrip` keeps the last character of text that is not all whitespace. */
  lemma TrimLeftLast(s: string)
    ensures TrimLeft(s) != [] ==> TrimLeft(s)[|TrimLeft(s)| - 1] == s[|s| - 1]
  {
    var t := TrimLeft(s);
    if t != [] {
      assert t == s[|s| - |t|..];
    }
  }

  /** Leading whitespace does not change the words. */
  lemma WordsAfterSpace(s: string)
    ensures Words(TrimLeft(s)) == Words(s)
  {
    var t := TrimLeft(s);
    assert TrimLeft(t) == t;
  }

  /** Splitting the joined words gives the words back. */
  lemma {:induction false} WordsOfJoin(ws: seq<string>)
    requires forall k :: 0 <= k < |ws| ==> IsWord(ws[k])
    ensures Words(Join(ws)) == ws
  {
    if ws == [] {
      assert TrimLeft([]) == [];
    } else if |ws| == 1 {
      WordsOfOneWord(ws[0]);
    } else {
      var tail := ws[1..];
      assert [ws[0]] + tail == ws;
      assert forall k :: 0 <= k < |tail| ==> IsWord(tail[k]) by {
        forall k | 0 <= k < |tail| ensures IsWord(tail[k]) {
          assert tail[k] == ws[k + 1];
        }
      }
      WordsOfJoin(tail);
      WordsOfJoinCons(ws[0], tail);
    }
  }

  lemma WordsOfOneWord(w: string)
    requires IsWord(w)
    ensures Words(w) == [w]
  {
    WordsOfWordHead(w, []);
    assert w + [] == w;
    assert TrimLeft([]) == [];
  }

  /** The step of `WordsOfJoin`: the first word, then the words of the rest. */
  lemma WordsOfJoinCons(w: string, tail: seq<string>)
    requires IsWord(w) && tail != []
    requires forall k :: 0 <= k < |tail| ==> IsWord(tail[k])
    ensures Words(Join([w] + tail)) == [w] + Words(Join(tail))
  {
    var ws := [w] + tail;
    assert ws[1..] == tail;
    JoinStartsWithWord(tail);
    WordsAfterSeparator(w, Join(tail));
  }

  lemma JoinStartsWithWord(ws: seq<string>)
    requires forall k :: 0 <= k < |ws| ==> IsWord(ws[k])
    ensures Join(ws) == [] || !IsSpace(Join(ws)[0])
  {
  }

  /** A word, one space and text starting with a word split as that word and the text's words. */
  lemma WordsAfterSeparator(w: string, j: string)
    requires IsWord(w) && (j == [] || !IsSpace(j[0]))
    ensures Words(w + " " + j) == [w] + Words(j)
  {
    assert w + " " + j == w + (" " + j);
    WordsOfWordHead(w, " " + j);
    TrimLeftLoneSpace(" " + j);
    assert (" " + j)[1..] == j;
    WordsAfterSpace(" " + j);
  }

  /** `lstrip` of a text with a lone leading whitespace character drops just that character. */
  lemma TrimLeftLoneSpace(s: string)
    requires s != [] && IsSpace(s[0]) && (|s| == 1 || !IsSpace(s[1]))
    ensures TrimLeft(s) == s[1..]
  {
    var t := s[1..];
    assert t == [] || !IsSpace(t[0]);
  }

  /** Whitespace-only text has no words, and text with no words is whitespace only. */
  lemma NoWordsAllSpace(s: string)
    ensures Words(s) == [] <==> AllSpace(s)
  {
    var t := TrimLeft(s);
    if t != [] {
      assert !IsSpace(s[|s| - |t|]);
    } else {
      assert s[..|s|] == s;
    }
  }

  /** `str.lower()` on one character; only ASCII letters are modelled. */
  function LowerChar(c: char): char {
    if 'A' <= c <= 'Z' then (c as int + 32) as char else c
  }

  /** `str.lower()`. */
  function Lower(s: string): (r: string)
    ensures |r| == |s|
    ensures forall i :: 0 <= i < |s| ==> r[i] == LowerChar(s[i])
  {
    if s == [] then [] else [LowerChar(s[0])] + Lower(s[1..])
  }

  /** Lowering twice is lowering once. */
  lemma LowerIdempotent(s: string)
    ensures Lower(Lower(s)) == Lower(s)
  {
  }

  /** `\w` on one character; only ASCII word characters are modelled. */
  predicate IsWordChar(c: char) {
    ('a' <= c <= 'z') || ('A' <= c <= 'Z') || ('0' <= c <= '9') || c == '_'
  }

  /** Python's `a < b` on strings: lexicographic by code point, a proper prefix first. */
  predicate LexLess(a: string, b: string) {
    if a == [] then b != []
    else if b == [] then false
    else if a[0] != b[0] then a[0] < b[0]
    else LexLess(a[1..], b[1..])
  }

  lemma {:induction false} LexLessIrreflexive(a: string)
    ensures !LexLess(a, a)
  {
    if a != [] {
      LexLessIrreflexive(a[1..]);
    }
  }

  lemma {:induction false} LexLessTransitive(a: string, b: string, c: string)
    requires LexLess(a, b) && LexLess(b, c)
    ensures LexLess(a, c)
  {
    if a != [] && b != [] && c != [] && a[0] == b[0] && b[0] == c[0] {
      LexLessTransitive(a[1..], b[1..], c[1..]);
    }
  }

  /** Two different strings are ordered one way or the other. */
  lemma {:induction false} LexLessTotal(a: string, b: string)
    requires a != b
    ensures LexLess(a, b) || LexLess(b, a)
  {
    if a != [] && b != [] && a[0] == b[0] {
      assert a == [a[0]] + a[1..] && b == [b[0]] + b[1..];
      LexLessTotal(a[1..], b[1..]);
    }
  }
}

=== FILE: requeue.dfy ===
/**
  `resume_paused_tasks` and `reset_failed_tasks`: both walk the ledger keys
  in insertion order and push the ids they select to the HEAD of the queue
  (`appendleft`), skipping ids already queued. They share one visiting
  pass, parameterised by `Kind`.
 */
module Requeue {
  import opened Basics
  import opened JsonValue
  import opened SeqUtil
  import opened TaskRecord
  import opened Ledger

  datatype Kind = ResumePaused | ResetFailed

  /** The records a pass looks for: `paused` ones, or `error`/`failed_download` ones. */
  predicate Eligible(kind: Kind, t: Task) {
    match kind
    case ResumePaused => t.status == Paused
    case ResetFailed => IsFailed(t.status)
  }

  /**
    The record rewrite: back to `pending_download`; a reset also zeroes the
    progress and clears the error message.
   */
  function Refresh(kind: Kind, t: Task, now: Stamp): (u: Task)
    ensures u.status == PendingDownload && u.lastUpdated == now
    ensures !Eligible(kind, u)
    ensures kind == ResetFailed ==> u.downloadProgress == Some(Num(0.0)) && u.errorMessage == Null
    ensures kind == ResetFailed ==>
      u.(status := t.status, downloadProgress := t.downloadProgress, errorMessage := t.errorMessage, lastUpdated := t.lastUpdated) == t
    ensures kind == ResumePaused ==> u.(status := t.status, lastUpdated := t.lastUpdated) == t
  {
    match kind
    case ResumePaused => t.(status := PendingDownload, lastUpdated := now)
    case ResetFailed => t.(status := PendingDownload, downloadProgress := Some(Num(0.0)), errorMessage := Null, lastUpdated := now)
  }

  /**
    Whether visiting `id` rewrites its record. A resume leaves a paused id
    that is already queued as it is; a reset rewrites every failed id.
   */
  predicate Touches(kind: Kind, s: State, id: Id) {
    && id in s.tasks
    && Eligible(kind, s.tasks[id])
    && (kind == ResetFailed || id !in s.queue)
  }

  /** Whether visiting `id` pushes it to the head of the queue. */
  predicate Pushes(kind: Kind, s: State, id: Id) {
    id in s.tasks && Eligible(kind, s.tasks[id]) && id !in s.queue
  }

  /** One iteration of the pass over the ledger keys. */
  function Visit(kind: Kind, s: State, id: Id, now: Stamp): State {
    s.(tasks := if Touches(kind, s, id) then s.tasks[id := Refresh(kind, s.tasks[id], now)] else s.tasks,
       queue := if Pushes(kind, s, id) then [id] + s.queue else s.queue)
  }

  /** The pass over `ids` (a snapshot of the keys taken before the loop). */
  function VisitAll(kind: Kind, ids: seq<Id>, s: State, now: Stamp): (r: State)
    ensures r.tasks.Keys == s.tasks.Keys
    ensures r.order == s.order && r.processed == s.processed && r.stop == s.stop
    decreases |ids|
  {
    if ids == [] then s
    else VisitAll(kind, ids[1..], Visit(kind, s, ids[0], now), now)
  }

  /** The ids of `ids`, in order, that a pass over an UNCHANGING state would push. */
  function Picked(kind: Kind, ids: seq<Id>, s: State): (p: seq<Id>)
    ensures forall k :: k in p <==> k in ids && Pushes(kind, s, k)
    ensures NoDup(ids) ==> NoDup(p)
  {
    if ids == [] then []
    else if Pushes(kind, s, ids[0]) then [ids[0]] + Picked(kind, ids[1..], s)
    else Picked(kind, ids[1..], s)
  }

  /**
    Reference definition of the pass over duplicate-free `ids`: every
    selected record is rewritten, and the selected unqueued ids end up in
    front of the old queue in REVERSE visiting order.
   */
  function PassSpec(kind: Kind, ids: seq<Id>, s: State, now: Stamp): State {
    s.(tasks := PassTasks(kind, ids, s, now), queue := Reverse(Picked(kind, ids, s)) + s.queue)
  }

  /** The record part of `PassSpec`. */
  function PassTasks(kind: Kind, ids: seq<Id>, s: State, now: Stamp): map<Id, Task> {
    map k | k in s.tasks :: if k in ids && Touches(kind, s, k) then Refresh(kind, s.tasks[k], now) else s.tasks[k]
  }

  /** `Picked` depends only on which ids the state would push. */
  lemma {:induction false} PickedAgree(kind: Kind, ids: seq<Id>, s: State, t: State)
    requires forall k :: k in ids ==> (Pushes(kind, s, k) <==> Pushes(kind, t, k))
    ensures Picked(kind, ids, s) == Picked(kind, ids, t)
  {
    if ids != [] {
      PickedAgree(kind, ids[1..], s, t);
    }
  }

  /** Visiting one id first and then the rest agrees with the reference definition (queue part). */
  lemma PassStepQueue(kind: Kind, x: Id, rest: seq<Id>, s: State, now: Stamp)
    requires x !in rest
    ensures PassSpec(kind, rest, Visit(kind, s, x, now), now).queue == PassSpec(kind, [x] + rest, s, now).queue
  {
    var s1 := Visit(kind, s, x, now);
    forall k | k in rest
      ensures Pushes(kind, s1, k) <==> Pushes(kind, s, k)
    {
      assert k != x;
    }
    PickedAgree(kind, rest, s1, s);
    assert ([x] + rest)[1..] == rest;
    if Pushes(kind, s, x) {
      assert Picked(kind, [x] + rest, s) == [x] + Picked(kind, rest, s);
      assert ([x] + Picked(kind, rest, s))[1..] == Picked(kind, rest, s);
    }
  }

  /** Visiting one id first and then the rest agrees with the reference definition (record part). */
  lemma PassStepTasks(kind: Kind, x: Id, rest: seq<Id>, s: State, now: Stamp)
    requires x !in rest
    ensures PassTasks(kind, rest, Visit(kind, s, x, now), now) == PassTasks(kind, [x] + rest, s, now)
  {
    var s1 := Visit(kind, s, x, now);
    var lhs := PassTasks(kind, rest, s1, now);
    var rhs := PassTasks(kind, [x] + rest, s, now);
    forall k | k in s.tasks
      ensures lhs[k] == rhs[k]
    {
      if k == x {
        assert lhs[k] == s1.tasks[x];
      } else {
        TouchesOther(kind, s, x, k, now);
      }
    }
  }

  /** Visiting `x` does not change the record of, or the decision about, any other id. */
  lemma TouchesOther(kind: Kind, s: State, x: Id, k: Id, now: Stamp)
    requires k != x && k in s.tasks
    ensures Visit(kind, s, x, now).tasks[k] == s.tasks[k]
    ensures Touches(kind, Visit(kind, s, x, now), k) <==> Touches(kind, s, k)
  {
    var s1 := Visit(kind, s, x, now);
    assert k in s1.queue <==> k in s.queue;
  }

  /** The visiting pass over duplicate-free ids computes its reference definition. */
  lemma {:induction false} VisitAllIsPassSpec(kind: Kind, ids: seq<Id>, s: State, now: Stamp)
    requires NoDup(ids)
    ensures VisitAll(kind, ids, s, now) == PassSpec(kind, ids, s, now)
    decreases |ids|
  {
    if ids == [] {
      assert PassSpec(kind, ids, s, now).tasks == s.tasks;
    } else {
      var x := ids[0];
      var rest := ids[1..];
      assert NoDup(rest);
      assert x !in rest;
      assert ids == [x] + rest;
      VisitAllIsPassSpec(kind, rest, Visit(kind, s, x, now), now);
      PassStepQueue(kind, x, rest, s, now);
      PassStepTasks(kind, x, rest, s, now);
    }
  }

  /** `resume_paused_tasks`. */
  function ResumePausedTasks(s: State, now: Stamp): (r: State)
    ensures r.tasks.Keys == s.tasks.Keys
    ensures r.order == s.order && r.processed == s.processed && r.stop == s.stop
  {
    VisitAll(ResumePaused, s.order, s, now)
  }

  /** The ids `reset_failed_tasks` removes from `processed_ids` before its pass. */
  function FailedProcessed(s: State): (f: set<Id>)
    ensures forall k :: k in f <==> k in s.processed && k in s.tasks && IsFailed(s.tasks[k].status)
  {
    set k | k in s.processed && k in s.tasks && IsFailed(s.tasks[k].status)
  }

  /** `reset_failed_tasks`. */
  function ResetFailedTasks(s: State, now: Stamp): (r: State)
    ensures r.tasks.Keys == s.tasks.Keys
    ensures r.order == s.order && r.stop == s.stop
    ensures forall k :: k in r.processed <==> k in s.processed && !(k in s.tasks && IsFailed(s.tasks[k].status))
  {
    VisitAll(ResetFailed, s.order, s.(processed := s.processed - FailedProcessed(s)), now)
  }

  /**
    Exact effect of `resume_paused_tasks` on a well-formed ledger: every
    paused id not yet queued becomes `pending_download` and goes to the
    front (the last key visited ends up first); queued paused ids stay
    `paused`; all other records are untouched.
   */
  lemma {:induction false} ResumePausedExact(s: State, now: Stamp)
    requires Valid(s)
    ensures var r := ResumePausedTasks(s, now);
      && r.queue == Reverse(Picked(ResumePaused, s.order, s)) + s.queue
      && (forall k :: k in s.tasks && s.tasks[k].status == Paused && k !in s.queue ==>
            r.tasks[k] == s.tasks[k].(status := PendingDownload, lastUpdated := now))
      && (forall k :: k in s.tasks && !(s.tasks[k].status == Paused && k !in s.queue) ==> r.tasks[k] == s.tasks[k])
  {
    VisitAllIsPassSpec(ResumePaused, s.order, s, now);
  }

  /**
    Exact effect of `reset_failed_tasks` on a well-formed ledger: every
    failed record is reset, leaves `processed_ids`, and occurs in the queue
    once more than never: pushed to the front only if it was absent.
   */
  lemma {:induction false} ResetFailedExact(s: State, now: Stamp)
    requires Valid(s)
    ensures var r := ResetFailedTasks(s, now);
      var s0 := s.(processed := s.processed - FailedProcessed(s));
      && r.queue == Reverse(Picked(ResetFailed, s.order, s0)) + s.queue
      && (forall k :: k in s.tasks && IsFailed(s.tasks[k].status) ==>
            && r.tasks[k] == Refresh(ResetFailed, s.tasks[k], now)
            && k !in r.processed
            && k in r.queue
            && multiset(r.queue)[k] == (if k in s.queue then multiset(s.queue)[k] else 1))
      && (forall k :: k in s.tasks && !IsFailed(s.tasks[k].status) ==> r.tasks[k] == s.tasks[k])
  {
    var s0 := s.(processed := s.processed - FailedProcessed(s));
    VisitAllIsPassSpec(ResetFailed, s.order, s0, now);
    var p := Picked(ResetFailed, s.order, s0);
    forall k | k in s.tasks && IsFailed(s.tasks[k].status)
      ensures k in Reverse(p) + s.queue
      ensures multiset(Reverse(p) + s.queue)[k] == (if k in s.queue then multiset(s.queue)[k] else 1)
    {
      assert k in s.order;
      PushedOnce(p, s.queue, k);
    }
  }

  /** An id pushed (once) in front of a queue that lacks it occurs there once; an id not pushed keeps its count. */
  lemma PushedOnce(p: seq<Id>, q: seq<Id>, k: Id)
    requires NoDup(p)
    requires k in p <==> k !in q
    ensures k in Reverse(p) + q
    ensures multiset(Reverse(p) + q)[k] == (if k in q then multiset(q)[k] else 1)
  {
    ReverseMultiset(p);
    NoDupCount(p, k);
    assert multiset(Reverse(p) + q) == multiset(p) + multiset(q);
  }

  /** Reversal permutes. */
  lemma ReverseMultiset<T>(s: seq<T>)
    ensures multiset(Reverse(s)) == multiset(s)
  {
    if s != [] {
      ReverseMultiset(s[1..]);
      assert s == [s[0]] + s[1..];
    }
  }
}

=== FILE: seq_util.dfy ===
/** Sequence helpers for the download queue (a Python `deque` of ids). */
module SeqUtil {

  /** No element occurs twice. */
  ghost predicate NoDup<T>(s: seq<T>) {
    forall i, j :: 0 <= i < j < |s| ==> s[i] != s[j]
  }

  /** The elements of `s` in reverse order. */
  function Reverse<T>(s: seq<T>): (r: seq<T>)
    ensures |r| == |s|
    ensures forall i :: 0 <= i < |s| ==> r[i] == s[|s| - 1 - i]
  {
    if s == [] then [] else Reverse(s[1..]) + [s[0]]
  }

  /**
    `deque.remove(x)` when `x` is present: only the FIRST occurrence of `x`
    is removed, later copies stay.
   */
  function RemoveFirst<T(==)>(s: seq<T>, x: T): (r: seq<T>)
    ensures x !in s ==> r == s
    ensures x in s ==> |r| == |s| - 1
    ensures multiset(r) == multiset(s) - multiset{x}
  {
    if s == [] then []
    else
      assert s == [s[0]] + s[1..];
      if s[0] == x then s[1..] else [s[0]] + RemoveFirst(s[1..], x)
  }

  /** Removes the first occurrence of every member of `xs`, keeping the rest in order. */
  function DropFirsts<T(!new)>(s: seq<T>, xs: set<T>): (r: seq<T>)
    ensures |r| <= |s|
  {
    if s == [] then []
    else if s[0] in xs then DropFirsts(s[1..], xs - {s[0]}) else [s[0]] + DropFirsts(s[1..], xs)
  }

  /** `DropFirsts` lowers the count of each member of `xs` that occurs by one and keeps every other count. */
  lemma {:induction false} DropFirstsCount<T(!new)>(s: seq<T>, xs: set<T>)
    ensures forall y :: multiset(DropFirsts(s, xs))[y] == if y in xs && y in s then multiset(s)[y] - 1 else multiset(s)[y]
  {
    if s != [] {
      assert s == [s[0]] + s[1..];
      if s[0] in xs {
        DropFirstsCount(s[1..], xs - {s[0]});
      } else {
        DropFirstsCount(s[1..], xs);
      }
    }
  }

  /** `a` is `b` with some elements left out, the rest kept in their order. */
  predicate Subseq<T(==)>(a: seq<T>, b: seq<T>)
    decreases |b|
  {
    a == [] || (b != [] && ((a[0] == b[0] && Subseq(a[1..], b[1..])) || Subseq(a, b[1..])))
  }

  /** `DropFirsts` only leaves elements out: what remains keeps its relative order. */
  lemma {:induction false} DropFirstsSubseq<T(!new)>(s: seq<T>, xs: set<T>)
    ensures Subseq(DropFirsts(s, xs), s)
  {
    if s != [] {
      if s[0] in xs {
        DropFirstsSubseq(s[1..], xs - {s[0]});
      } else {
        DropFirstsSubseq(s[1..], xs);
        assert ([s[0]] + DropFirsts(s[1..], xs))[1..] == DropFirsts(s[1..], xs);
      }
    }
  }

  /** Removing first occurrences one at a time is the same as removing them all at once. */
  lemma {:induction false} DropFirstsAfterRemove<T(!new)>(s: seq<T>, x: T, xs: set<T>)
    requires x !in xs
    ensures DropFirsts(RemoveFirst(s, x), xs) == DropFirsts(s, xs + {x})
    decreases |s|, 1
  {
    if s == [] {
    } else if s[0] == x {
      assert xs + {x} - {s[0]} == xs;
    } else if s[0] in xs {
      DropAfterRemoveIn(s, x, xs);
    } else {
      DropAfterRemoveOut(s, x, xs);
    }
  }

  /** The case of `DropFirstsAfterRemove` where the head is another member of `xs`. */
  lemma {:induction false} DropAfterRemoveIn<T(!new)>(s: seq<T>, x: T, xs: set<T>)
    requires x !in xs && s != [] && s[0] != x && s[0] in xs
    ensures DropFirsts(RemoveFirst(s, x), xs) == DropFirsts(s, xs + {x})
    decreases |s|, 0
  {
    var h := s[0];
    var r := RemoveFirst(s[1..], x);
    RemoveFirstPastHead(s, x);
    DropFirstsMemberHead([h] + r, xs);
    assert ([h] + r)[1..] == r;
    DropFirstsAfterRemove(s[1..], x, xs - {h});
    SwapAddRemove(xs, h, x);
    DropFirstsMemberHead(s, xs + {x});
  }

  lemma SwapAddRemove<T>(xs: set<T>, h: T, x: T)
    requires h != x
    ensures xs - {h} + {x} == xs + {x} - {h}
  {
  }

  lemma RemoveFirstPastHead<T>(s: seq<T>, x: T)
    requires s != [] && s[0] != x
    ensures RemoveFirst(s, x) == [s[0]] + RemoveFirst(s[1..], x)
  {
  }

  lemma DropFirstsMemberHead<T(!new)>(s: seq<T>, xs: set<T>)
    requires s != [] && s[0] in xs
    ensures DropFirsts(s, xs) == DropFirsts(s[1..], xs - {s[0]})
  {
  }

  /** The case of `DropFirstsAfterRemove` where the head is kept. */
  lemma {:induction false} DropAfterRemoveOut<T(!new)>(s: seq<T>, x: T, xs: set<T>)
    requires x !in xs && s != [] && s[0] != x && s[0] !in xs
    ensures DropFirsts(RemoveFirst(s, x), xs) == DropFirsts(s, xs + {x})
    decreases |s|, 0
  {
    var h := s[0];
    var r := RemoveFirst(s[1..], x);
    assert RemoveFirst(s, x) == [h] + r;
    assert ([h] + r)[1..] == r;
    assert DropFirsts([h] + r, xs) == [h] + DropFirsts(r, xs);
    DropFirstsAfterRemove(s[1..], x, xs);
  }

  /** In a sequence without duplicates, an element occurs at most once. */
  lemma NoDupCount<T>(s: seq<T>, y: T)
    requires NoDup(s)
    ensures multiset(s)[y] <= 1
  {
    if s != [] {
      assert NoDup(s[1..]);
      NoDupCount(s[1..], y);
      assert s == [s[0]] + s[1..];
      if s[0] == y {
        assert y !in s[1..];
      }
    }
  }

  /** Removing nothing keeps the sequence. */
  lemma {:induction false} DropFirstsNone<T(!new)>(s: seq<T>)
    ensures DropFirsts(s, {}) == s
  {
    if s != [] {
      DropFirstsNone(s[1..]);
      assert s == [s[0]] + s[1..];
    }
  }
}

=== FILE: store.dfy ===
/**
  Persistence and the manager as a whole: the status file as an abstract
  "stored snapshot, or nothing usable" choice, which coroutines write it,
  and what a restart recovers. JSON encoding and file I/O are not modelled.
 */
module Store {
  import opened Basics
  import opened JsonValue
  import opened SeqUtil
  import opened TaskRecord
  import opened Ledger
  import Requeue
  import ForceComplete

  /** The three keys `_save_status` writes: `task_status`, `download_queue`, `processed_ids`. */
  datatype Snapshot = Snapshot(tasks: map<Id, Task>, order: seq<Id>, queue: seq<Id>, processed: set<Id>)

  /** The status file: absent, unreadable or undecodable, or a decoded snapshot. */
  datatype FileContent = Missing | Corrupt | Stored(snap: Snapshot)

  /**
    `_load_status`: a decoded file replaces tasks, queue and processed ids
    but leaves the stop flag as it was; a missing or corrupt file resets
    the state (stop flag cleared) through `_reset_state`.
   */
  function Load(f: FileContent, stop: bool): (s: State)
    ensures f.Stored? ==>
      && s.tasks == f.snap.tasks && s.order == f.snap.order && s.queue == f.snap.queue
      && s.processed == f.snap.processed && s.stop == stop
    ensures !f.Stored? ==> s == Empty
  {
    match f
    case Stored(snap) => State(snap.tasks, snap.order, snap.queue, snap.processed, stop)
    case _ => Empty
  }

  /** `_save_status`: the stop flag is not persisted. */
  function Save(s: State): (f: FileContent)
    ensures f.Stored?
    ensures Load(f, s.stop) == s
    ensures forall b :: Load(f, b) == s.(stop := b)
  {
    Stored(Snapshot(s.tasks, s.order, s.queue, s.processed))
  }

  /** A request to the manager: one public coroutine with its arguments. */
  datatype Command =
    | AddTask(info: VideoInfo)
    | ClaimNextTask
    | ReportProgress(id: Id, rep: Report)
    | SetPath(id: Id, path: string)
    | StopRequest
    | ClearStopRequest
    | ResumePaused
    | ResetFailed
    | MarkErrors(today: Date)
    | MarkSpecific(ids: seq<Id>)
    | ResetAll

  /** The in-memory effect of a command, and the claim it returns. */
  function Apply(s: State, cmd: Command, now: Stamp): (State, Option<Claim>) {
    match cmd
    case AddTask(info) => (AddDownloadTask(s, info, now), None)
    case ClaimNextTask => ClaimNext(s, now)
    case ReportProgress(id, rep) => (UpdateProgress(s, id, rep, now), None)
    case SetPath(id, path) => (SetLocalPath(s, id, path, now), None)
    case StopRequest => (RequestStop(s), None)
    case ClearStopRequest => (ClearStop(s), None)
    case ResumePaused => (Requeue.ResumePausedTasks(s, now), None)
    case ResetFailed => (Requeue.ResetFailedTasks(s, now), None)
    case MarkErrors(today) => (ForceComplete.MarkErrorsAsCompleted(s, today, now), None)
    case MarkSpecific(ids) => (ForceComplete.MarkSpecificTasksAsCompleted(s, ids, now), None)
    case ResetAll => (ResetState(s), None)
  }

  /**
    Whether the coroutine reaches `_save_status`. Early returns do not
    save, the stop requests never save, and a claim whose head id has no
    record drops that id without saving.
   */
  predicate Saves(s: State, cmd: Command) {
    match cmd
    case AddTask(info) => HasId(info) && !AlreadyTracked(s, info.fc2Id.value)
    case ClaimNextTask => !s.stop && s.queue != [] && s.queue[0] in s.tasks
    case ReportProgress(id, _) => id in s.tasks
    case SetPath(id, _) => id in s.tasks
    case StopRequest => false
    case ClearStopRequest => false
    case _ => true
  }

  /** The only command whose in-memory effect is not written: a claim that drops an unknown head id. */
  predicate DropsUnknownHead(s: State, cmd: Command) {
    cmd == ClaimNextTask && !s.stop && s.queue != [] && s.queue[0] !in s.tasks
  }

  /** The manager: its memory and the status file on disk. */
  datatype Manager = Manager(mem: State, disk: FileContent)

  /** Construction followed by the initial `_load_status`. */
  function Start(disk: FileContent): (m: Manager)
    ensures m.disk == disk
    ensures disk.Stored? ==> Save(m.mem) == disk && !m.mem.stop
    ensures !disk.Stored? ==> m.mem == Empty
  {
    Manager(Load(disk, false), disk)
  }

  /**
    How a `_save_status` write ends. `open(..., 'w')` truncates the file
    before `json.dump` writes it, so a dump that fails with `IOError`
    leaves a file that no longer decodes; an `open` that fails leaves the
    old file. Both errors are logged and ignored.
   */
  datatype WriteOutcome = Written | OpenFailed | DumpFailed

  /** What the status file holds after a save of `mem` over `prev` that ends with `w`. */
  function AfterWrite(prev: FileContent, mem: State, w: WriteOutcome): (f: FileContent)
    ensures w == Written ==> Load(f, mem.stop) == mem
    ensures w == OpenFailed ==> f == prev
    ensures w == DumpFailed ==> Load(f, mem.stop) == Empty
  {
    match w
    case Written => Save(mem)
    case OpenFailed => prev
    case DumpFailed => Corrupt
  }

  /** One public coroutine; `w` says how its file write, if it makes one, ends. */
  function Step(m: Manager, cmd: Command, now: Stamp, w: WriteOutcome): (r: (Manager, Option<Claim>))
    ensures r.0.mem == Apply(m.mem, cmd, now).0 && r.1 == Apply(m.mem, cmd, now).1
    ensures Saves(m.mem, cmd) && w == Written ==> Load(r.0.disk, r.0.mem.stop) == r.0.mem
    ensures Saves(m.mem, cmd) && w == DumpFailed ==> r.0.disk == Corrupt
    ensures !Saves(m.mem, cmd) || w == OpenFailed ==> r.0.disk == m.disk
  {
    var (mem, claim) := Apply(m.mem, cmd, now);
    (Manager(mem, if Saves(m.mem, cmd) then AfterWrite(m.disk, mem, w) else m.disk), claim)
  }

  /** The file holds exactly what is in memory, apart from the stop flag. */
  ghost predicate Synced(m: Manager) {
    m.disk == Save(m.mem)
  }

  /**
    Commands that return early or only toggle the stop flag change nothing
    but that flag, which is never written, so skipping the save loses nothing.
   */
  lemma NoSaveNoChange(s: State, cmd: Command, now: Stamp)
    requires !Saves(s, cmd) && !DropsUnknownHead(s, cmd)
    ensures Apply(s, cmd, now).0 == s.(stop := Apply(s, cmd, now).0.stop)
    ensures Apply(s, cmd, now).1 == None
    ensures Save(Apply(s, cmd, now).0) == Save(s)
  {
  }

  /**
    With successful writes, every command keeps the file in step with
    memory except a claim that drops an unknown head id.
   */
  lemma StepKeepsSynced(m: Manager, cmd: Command, now: Stamp)
    requires Synced(m) && !DropsUnknownHead(m.mem, cmd)
    ensures Synced(Step(m, cmd, now, Written).0)
  {
    if !Saves(m.mem, cmd) {
      NoSaveNoChange(m.mem, cmd, now);
    }
  }

  /**
    A save whose dump fails loses everything: a restart finds a file that
    does not decode and starts from the empty state.
   */
  lemma FailedDumpLosesState(m: Manager, cmd: Command, now: Stamp)
    requires Saves(m.mem, cmd)
    ensures Start(Step(m, cmd, now, DumpFailed).0.disk).mem == Empty
  {
  }

  /** A restart of a synced manager recovers its memory, with the stop flag cleared. */
  lemma RestartRecovers(m: Manager)
    requires Synced(m)
    ensures Start(m.disk).mem == m.mem.(stop := false)
  {
  }

  /**
    The exception: an unknown head id is dropped from the in-memory queue,
    but the file still lists it, so a restart brings it back.
   */
  lemma UnknownHeadNotSaved(now: Stamp)
    ensures var m := Manager(State(map[], [], ["x"], {}, false), Save(State(map[], [], ["x"], {}, false)));
      var r := Step(m, ClaimNextTask, now, Written);
      && Synced(m) && r.1 == None && r.0.mem.queue == [] && !Synced(r.0)
      && Start(r.0.disk).mem.queue == ["x"]
  {
  }
}

=== FILE: task_record.dfy ===
/**
  One entry of the download ledger (`task_status[fc2_id]` in
  tk-auto-dl/src/status_manager.py) and the record-level rewrites the
  ledger operations apply to it.
 */
module TaskRecord {
  import opened Basics
  import opened JsonValue

  /** An item id (`fc2_id`). */
  type Id = string

  /**
    The `status` field. The seven states the manager writes or tests are
    named; `Other` keeps any other value a progress report may write
    (`"finished"` before it is rewritten, a worker-specific string, null).
   */
  datatype Status =
    | PendingDownload
    | Downloading
    | Completed
    | Error
    | FailedDownload
    | Paused
    | Skipped
    | Other(raw: Value)

  /** The string under which each named state is stored. */
  function StatusName(st: Status): string
    requires !st.Other?
  {
    match st
    case PendingDownload => "pending_download"
    case Downloading => "downloading"
    case Completed => "completed"
    case Error => "error"
    case FailedDownload => "failed_download"
    case Paused => "paused"
    case Skipped => "skipped"
  }

  /** True of the stored strings that denote a named state. */
  predicate IsStateName(s: string) {
    s in {"pending_download", "downloading", "completed", "error", "failed_download", "paused", "skipped"}
  }

  /** `Other` never disguises a named state. */
  predicate CanonicalStatus(st: Status) {
    st.Other? ==> !(st.raw.Str? && IsStateName(st.raw.s))
  }

  /** Encodes a status as the JSON value stored in the status file. */
  function StatusValue(st: Status): (v: Value)
    ensures !st.Other? ==> v.Str? && IsStateName(v.s)
  {
    if st.Other? then st.raw else Str(StatusName(st))
  }

  /** Decodes a stored status value; the inverse of `StatusValue`. */
  function StatusOf(v: Value): (st: Status)
    ensures CanonicalStatus(st)
    ensures StatusValue(st) == v
    ensures st.Other? <==> !(v.Str? && IsStateName(v.s))
  {
    match v
    case Str("pending_download") => PendingDownload
    case Str("downloading") => Downloading
    case Str("completed") => Completed
    case Str("error") => Error
    case Str("failed_download") => FailedDownload
    case Str("paused") => Paused
    case Str("skipped") => Skipped
    case _ => Other(v)
  }

  /** Decoding an encoded canonical status gives it back. */
  lemma StatusRoundTrip(st: Status)
    requires CanonicalStatus(st)
    ensures StatusOf(StatusValue(st)) == st
  {
  }

  /** The statuses `reset_failed_tasks` and `mark_errors_as_completed` treat as failures. */
  predicate IsFailed(st: Status) {
    st == Error || st == FailedDownload
  }

  /**
    A ledger record. Keys outside the fixed set (for example `percentage`
    or `message`, merged in from a progress report) are kept in `extra`.
    `downloadProgress` is `None` only for a record loaded without that key.
   */
  datatype Task = Task(
    status: Status,
    title: Value,
    url: Value,
    addedDate: Value,
    rating: Value,
    downloadProgress: Option<Value>,
    localPath: Value,
    errorMessage: Value,
    lastUpdated: Stamp,
    extra: map<string, Value>)

  /** The record keys that have a field of their own in `Task`. */
  const RecordKeys: set<string> :=
    {"status", "title", "url", "added_date", "rating", "download_progress", "local_path", "error_message", "last_updated"}

  /** The `video_info` dictionary handed to `add_download_task`. */
  datatype VideoInfo = VideoInfo(fc2Id: Option<Id>, title: Value, url: Value, addedDateStr: Value, rating: Value)

  /** A progress report: the arbitrary dictionary the worker sends. */
  type Report = map<string, Value>

  /** The record `add_download_task` writes for a (re-)enqueued id. */
  function NewTask(info: VideoInfo, now: Stamp): (t: Task)
    ensures t.status == PendingDownload && t.downloadProgress == Some(Num(0.0))
    ensures t.localPath == Null && t.errorMessage == Null && t.lastUpdated == now
    ensures t.title == info.title && t.url == info.url && t.addedDate == info.addedDateStr && t.rating == info.rating
    ensures t.extra == map[]
  {
    Task(PendingDownload, info.title, info.url, info.addedDateStr, info.rating, Some(Num(0.0)), Null, Null, now, map[])
  }

  /** The value a report gives `key`, or `current` when the report does not mention it. */
  function Field(rep: Report, key: string, current: Value): Value {
    if key in rep then rep[key] else current
  }

  /**
    `current_task.update(progress_data)` followed by the explicit writes of
    `download_progress` (the report's `percentage`, default 0) and
    `last_updated`.
   */
  function Merge(t: Task, rep: Report, now: Stamp): (m: Task)
    ensures m.status == (if "status" in rep then StatusOf(rep["status"]) else t.status)
    ensures m.downloadProgress == Some(if "percentage" in rep then rep["percentage"] else Num(0.0))
    ensures m.lastUpdated == now
    ensures forall k :: k in rep && k !in RecordKeys ==> k in m.extra && m.extra[k] == rep[k]
    ensures forall k :: k in t.extra && k !in rep ==> k in m.extra && m.extra[k] == t.extra[k]
    ensures forall k :: k in m.extra ==> k in t.extra || k in rep
    ensures m.title == (if "title" in rep then rep["title"] else t.title)
    ensures m.url == (if "url" in rep then rep["url"] else t.url)
    ensures m.addedDate == (if "added_date" in rep then rep["added_date"] else t.addedDate)
    ensures m.rating == (if "rating" in rep then rep["rating"] else t.rating)
    ensures m.localPath == (if "local_path" in rep then rep["local_path"] else t.localPath)
    ensures m.errorMessage == (if "error_message" in rep then rep["error_message"] else t.errorMessage)
  {
    t.(
      status := if "status" in rep then StatusOf(rep["status"]) else t.status,
      title := Field(rep, "title", t.title),
      url := Field(rep, "url", t.url),
      addedDate := Field(rep, "added_date", t.addedDate),
      rating := Field(rep, "rating", t.rating),
      localPath := Field(rep, "local_path", t.localPath),
      errorMessage := Field(rep, "error_message", t.errorMessage),
      extra := t.extra + (map k | k in rep && k !in RecordKeys :: rep[k]),
      downloadProgress := Some(if "percentage" in rep then rep["percentage"] else Num(0.0)),
      lastUpdated := now)
  }

  /** The record after a worker claims it in `get_next_download_task`. */
  function Claimed(t: Task, now: Stamp): (c: Task)
    ensures c.status == Downloading && c.downloadProgress == Some(Num(0.0))
    ensures c.errorMessage == Null && c.lastUpdated == now
    ensures c.(status := t.status, downloadProgress := t.downloadProgress, errorMessage := t.errorMessage, lastUpdated := t.lastUpdated) == t
  {
    t.(status := Downloading, downloadProgress := Some(Num(0.0)), errorMessage := Null, lastUpdated := now)
  }

  /** The record forced to `completed` by the two administrative overrides. */
  function AsCompleted(t: Task, now: Stamp): (c: Task)
    ensures c.status == Completed && c.downloadProgress == Some(Num(100.0))
    ensures c.errorMessage == Null && c.lastUpdated == now
    ensures c.(status := t.status, downloadProgress := t.downloadProgress, errorMessage := t.errorMessage, lastUpdated := t.lastUpdated) == t
  {
    t.(status := Completed, downloadProgress := Some(Num(100.0)), errorMessage := Null, lastUpdated := now)
  }

  /**
    The uniform `progress` field the read-only views add: the stored
    `download_progress` (default 0) while downloading, 100 once completed,
    0 in every other state.
   */
  function DerivedProgress(t: Task): (p: Value)
    ensures t.status == Downloading ==> p == t.downloadProgress.GetOr(Num(0.0))
    ensures t.status != Downloading ==> (p == Num(100.0) <==> t.status == Completed)
    ensures t.status != Downloading ==> (p == Num(0.0) <==> t.status != Completed)
  {
    match t.status
    case Downloading => t.downloadProgress.GetOr(Num(0.0))
    case Completed => Num(100.0)
    case _ => Num(0.0)
  }
}

=== FILE: tracking.dfy ===
/**
  `format_aftership_response`: turns an AfterShip tracking payload into the
  record the front end shows. The wall clock and the ISO timestamp
  reformatting are parameters: `now` is the fallback `last_updated` string
  and `reformat(ts)` is `datetime.fromisoformat(ts).strftime("%Y-%m-%d %H:%M")`,
  or `None` when parsing raises `ValueError` or `TypeError`.
 */
module Tracking {
  import opened Basics
  import opened JsonValue
  import opened PyText
  import opened CheckpointOrder

  /** `data.tracking` of the payload, when present and non-empty. */
  datatype TrackingInfo = TrackingInfo(
    tag: Option<string>,
    updatedAt: Option<Value>,
    checkpoints: seq<Checkpoint>)

  /** One entry of `history`. */
  datatype HistoryItem = HistoryItem(timestamp: string, location: Value, description: Value)

  /** `current_location`: `coordinates` are `[lng, lat]`. */
  datatype LatLng = LatLng(lat: Value, lng: Value)

  /** The record returned to the front end. */
  datatype Formatted = Formatted(
    trackingNumber: string,
    itemName: Value,
    status: string,
    statusClass: string,
    lastUpdated: Value,
    history: seq<HistoryItem>,
    currentLocation: Option<LatLng>)

  /** The label and CSS class per lower-cased AfterShip tag. */
  const StatusTable: map<string, (string, string)> := map[
    "pending" := ("未発送", "status-unshipped"),
    "info_received" := ("情報受信", "status-shipped"),
    "intransit" := ("輸送中", "status-intransit"),
    "outfordelivery" := ("配達中", "status-outfordelivery"),
    "delivered" := ("配達済", "status-delivered"),
    "attemptfail" := ("配達失敗", "status-unknown"),
    "exception" := ("例外発生", "status-unknown")]

  const UnknownStatus: (string, string) := ("不明", "status-unknown")

  /** The tags that get a class of their own. */
  const TrackedTags: set<string> := {"pending", "info_received", "intransit", "outfordelivery", "delivered"}

  /**
    Label and class for the `tag` field, `'Pending'` when missing, matched
    case-insensitively. Only the five tracked tags escape the unknown class.
   */
  function DisplayStatus(tag: Option<string>): (r: (string, string))
    ensures r.1 != "status-unknown" <==> Lower(tag.GetOr("Pending")) in TrackedTags
    ensures Lower(tag.GetOr("Pending")) in StatusTable ==> r == StatusTable[Lower(tag.GetOr("Pending"))]
    ensures Lower(tag.GetOr("Pending")) !in StatusTable ==> r == UnknownStatus
  {
    var key := Lower(tag.GetOr("Pending"));
    if key in StatusTable then StatusTable[key] else UnknownStatus
  }

  /** Tags that differ only in letter case display alike. */
  lemma StatusIgnoresCase(a: string, b: string)
    requires Lower(a) == Lower(b)
    ensures DisplayStatus(Some(a)) == DisplayStatus(Some(b))
  {
  }

  /** A missing tag reads as pending. */
  lemma MissingTagIsPending()
    ensures DisplayStatus(None) == ("未発送", "status-unshipped")
  {
    assert Lower("Pending") == "pending";
  }

  /** `location` or else `city` when truthy, otherwise `'N/A'`. */
  function PlaceOf(cp: Checkpoint): (r: Value)
    ensures Truthy(r)
    ensures cp.location.Some? && Truthy(cp.location.value) ==> r == cp.location.value
    ensures !(cp.location.Some? && Truthy(cp.location.value)) && cp.city.Some? && Truthy(cp.city.value) ==>
      r == cp.city.value
    ensures !(cp.location.Some? && Truthy(cp.location.value)) && !(cp.city.Some? && Truthy(cp.city.value)) ==>
      r == Str("N/A")
  {
    if cp.location.Some? && Truthy(cp.location.value) then cp.location.value
    else if cp.city.Some? && Truthy(cp.city.value) then cp.city.value
    else Str("N/A")
  }

  /** The history entry for one checkpoint. */
  function HistoryItemOf(cp: Checkpoint, reformat: string -> Option<string>): (h: HistoryItem)
    ensures reformat(Key(cp)).None? ==> h.timestamp == Key(cp)
    ensures reformat(Key(cp)).Some? ==> h.timestamp == reformat(Key(cp)).value
    ensures h.location == PlaceOf(cp) && Truthy(h.location)
    ensures h.description == cp.message.GetOr(Str(""))
  {
    var raw := Key(cp);
    var ts := if reformat(raw).Some? then reformat(raw).value else raw;
    HistoryItem(ts, PlaceOf(cp), cp.message.GetOr(Str("")))
  }

  /** The checkpoint has a two-element `coordinates` list. */
  predicate HasPosition(cp: Checkpoint) {
    cp.coordinates.Some? && |cp.coordinates.value| == 2
  }

  /** The position of the first listed checkpoint that has one. */
  function FirstPosition(es: seq<Entry>): (r: Option<LatLng>)
    ensures r.None? <==> forall i :: 0 <= i < |es| ==> !HasPosition(es[i].cp)
    ensures r.Some? ==>
      exists k :: (0 <= k < |es| && HasPosition(es[k].cp)
        && r.value == LatLng(es[k].cp.coordinates.value[1], es[k].cp.coordinates.value[0])
        && forall i :: 0 <= i < k ==> !HasPosition(es[i].cp))
  {
    if es == [] then None
    else if HasPosition(es[0].cp) then
      Some(LatLng(es[0].cp.coordinates.value[1], es[0].cp.coordinates.value[0]))
    else
      var r := FirstPosition(es[1..]);
      assert forall i :: 1 <= i < |es| ==> es[i] == es[1..][i - 1];
      if r.Some? then
        var k :| 0 <= k < |es[1..]| && HasPosition(es[1..][k].cp)
          && r.value == LatLng(es[1..][k].cp.coordinates.value[1], es[1..][k].cp.coordinates.value[0])
          && forall i :: 0 <= i < k ==> !HasPosition(es[1..][i].cp);
        assert es[k + 1] == es[1..][k];
        r
      else r
  }

  /** The history list, in display order. */
  function History(es: seq<Entry>, reformat: string -> Option<string>): (h: seq<HistoryItem>)
    ensures |h| == |es|
    ensures forall k :: 0 <= k < |es| ==> h[k] == HistoryItemOf(es[k].cp, reformat)
  {
    seq(|es|, k requires 0 <= k < |es| => HistoryItemOf(es[k].cp, reformat))
  }

  /**
    `format_aftership_response`. `tracking` is `None` when `data.tracking`
    is missing, null or empty; `names` is the item-name store.
   */
  function FormatResponse(tracking: Option<TrackingInfo>, trackingNumber: string,
                          names: map<string, Value>, reformat: string -> Option<string>,
                          now: string): (r: Option<Formatted>)
    ensures r.None? <==> tracking.None?
    ensures r.Some? ==> r.value.trackingNumber == trackingNumber
    ensures r.Some? ==> (r.value.status, r.value.statusClass) == DisplayStatus(tracking.value.tag)
    ensures r.Some? ==> r.value.itemName == (if trackingNumber in names then names[trackingNumber] else Str(""))
    ensures r.Some? ==>
      var order := SortCheckpoints(tracking.value.checkpoints);
      && |r.value.history| == |tracking.value.checkpoints|
      && (forall k :: 0 <= k < |order| ==> r.value.history[k] == HistoryItemOf(order[k].cp, reformat))
      && r.value.currentLocation == FirstPosition(order)
    ensures r.Some? && tracking.value.checkpoints != [] ==> r.value.lastUpdated == Str(r.value.history[0].timestamp)
    ensures r.Some? && tracking.value.checkpoints == [] ==>
      r.value.lastUpdated == (if tracking.value.updatedAt.Some? && Truthy(tracking.value.updatedAt.value)
                              then tracking.value.updatedAt.value else Str(now))
  {
    if tracking.None? then None
    else
      var info := tracking.value;
      var status := DisplayStatus(info.tag);
      var fallback := if info.updatedAt.Some? && Truthy(info.updatedAt.value) then info.updatedAt.value else Str(now);
      var order := SortCheckpoints(info.checkpoints);
      var history := History(order, reformat);
      var lastUpdated := if history != [] then Str(history[0].timestamp) else fallback;
      var itemName := if trackingNumber in names then names[trackingNumber] else Str("");
      Some(Formatted(trackingNumber, itemName, status.0, status.1, lastUpdated, history, FirstPosition(order)))
  }

  /**
    With checkpoints, `last_updated` is the display timestamp of a
    checkpoint no other checkpoint is later than.
   */
  lemma LastUpdatedIsNewest(info: TrackingInfo, trackingNumber: string, names: map<string, Value>,
                            reformat: string -> Option<string>, now: string)
    requires info.checkpoints != []
    ensures var r := FormatResponse(Some(info), trackingNumber, names, reformat, now).value;
      exists cp :: (cp in info.checkpoints
        && r.lastUpdated == Str(HistoryItemOf(cp, reformat).timestamp)
        && forall i :: 0 <= i < |info.checkpoints| ==> !LexLess(Key(cp), Key(info.checkpoints[i])))
  {
    var order := SortCheckpoints(info.checkpoints);
    var first := order[0];
    assert first in multiset(Tagged(info.checkpoints));
    var j :| 0 <= j < |Tagged(info.checkpoints)| && Tagged(info.checkpoints)[j] == first;
    assert first.cp == info.checkpoints[j];
    forall i | 0 <= i < |info.checkpoints| ensures !LexLess(Key(first.cp), Key(info.checkpoints[i])) {
      FirstIsNewest(info.checkpoints, i);
    }
  }
}

=== FILE: tts_text.dfy ===
/**
  The text handling around the language model: `clean_text_for_tts`,
  the post-processing `get_language` applies to the model's answer, and
  the two wrappers `generate_reply` and `translate_text`. The model's
  answer itself is a parameter (`None` when the call failed).
 */
module TtsText {
  import opened Basics
  import opened PyText

  const Fence: string := "```"

  /** `t` holds "```" starting at position `j`. */
  predicate FenceAt(t: string, j: nat) {
    j + 3 <= |t| && t[j..j + 3] == Fence
  }

  /** Position of the first "```" in `t`, if any. */
  function FindFence(t: string): (r: Option<nat>)
    ensures r.Some? ==> FenceAt(t, r.value)
    ensures r.Some? ==> forall j: nat :: j < r.value ==> !FenceAt(t, j)
    ensures r.None? ==> forall j: nat :: !FenceAt(t, j)
    decreases |t|
  {
    if |t| < 3 then None
    else if t[..3] == Fence then Some(0)
    else
      var rest := FindFence(t[1..]);
      assert forall j: nat {:trigger FenceAt(t, j)} :: 1 <= j ==> (FenceAt(t, j) <==> FenceAt(t[1..], j - 1)) by {
        forall j: nat | 1 <= j ensures FenceAt(t, j) <==> FenceAt(t[1..], j - 1) {
          if j + 3 <= |t| {
            assert t[j..j + 3] == t[1..][j - 1..j + 2];
          }
        }
      }
      assert !FenceAt(t, 0);
      if rest.Some? then Some(rest.value + 1) else None
  }

  /**
    `re.sub(r'```.*?```', '', text, flags=re.DOTALL)`: scanning left to
    right, an opening fence with a later closing fence is removed together
    with everything up to and including the nearest closing fence; other
    characters are kept.
   */
  function StripFences(s: string): (r: string)
    ensures |r| <= |s|
    decreases |s|
  {
    if |s| >= 3 && s[..3] == Fence && FindFence(s[3..]).Some? then
      StripFences(s[3 + FindFence(s[3..]).value + 3..])
    else if s == [] then []
    else [s[0]] + StripFences(s[1..])
  }

  /** Every whitespace character is a plain space and none is followed by another. */
  ghost predicate SingleSpaced(s: string) {
    && (forall i :: 0 <= i < |s| && IsSpace(s[i]) ==> s[i] == ' ')
    && (forall i, j :: 0 <= i < j < |s| && j == i + 1 ==> !(IsSpace(s[i]) && IsSpace(s[j])))
  }

  /** The shape of text handed to speech synthesis. */
  ghost predicate Normalized(s: string) {
    SingleSpaced(s) && (s == [] || (!IsSpace(s[0]) && !IsSpace(s[|s| - 1])))
  }

  /** `re.sub(r'\s+', ' ', s)`: each whitespace run becomes one space. */
  function Collapse(s: string): (r: string)
    ensures SingleSpaced(r)
    ensures NonSpace(r) == NonSpace(s)
    ensures |s| > 0 ==> |r| > 0 && (IsSpace(r[0]) <==> IsSpace(s[0]))
    ensures |s| == 0 ==> r == []
    decreases |s|
  {
    if s == [] then []
    else if IsSpace(s[0]) then
      var t := TrimLeft(s);
      var c := Collapse(t);
      assert s == s[..|s| - |t|] + t;
      NonSpaceAppend(s[..|s| - |t|], t);
      NonSpaceOfSpaces(s[..|s| - |t|]);
      assert ([' '] + c)[1..] == c;
      [' '] + c
    else
      var c := Collapse(s[1..]);
      assert ([s[0]] + c)[1..] == c;
      [s[0]] + c
  }

  lemma SingleSpacedSlice(s: string, a: nat, b: nat)
    requires SingleSpaced(s) && a <= b <= |s|
    ensures SingleSpaced(s[a..b])
  {
    var t := s[a..b];
    forall i | 0 <= i < |t| && IsSpace(t[i])
      ensures t[i] == ' '
    {
      assert t[i] == s[a + i];
    }
    forall i, j | 0 <= i < j < |t| && j == i + 1
      ensures !(IsSpace(t[i]) && IsSpace(t[j]))
    {
      assert t[i] == s[a + i] && t[j] == s[a + j];
    }
  }

  /**
    `clean_text_for_tts`: fenced blocks removed, whitespace runs collapsed
    to one space, then stripped. The result is in normalized form and keeps
    exactly the visible characters left after removing the blocks.
   */
  function CleanTextForTts(text: string): (r: string)
    ensures Normalized(r)
    ensures NonSpace(r) == NonSpace(StripFences(text))
    ensures r == Join(Words(StripFences(text)))
  {
    var x := StripFences(text);
    var c := Collapse(x);
    StripKeepsSingleSpaced(c);
    CleanIsJoinedWords(x);
    Strip(c)
  }

  lemma StripKeepsSingleSpaced(s: string)
    requires SingleSpaced(s)
    ensures SingleSpaced(Strip(s))
  {
    var a := StripIsSlice(s);
    SingleSpacedSlice(s, a, a + |Strip(s)|);
  }

  /** No "```" starts in `t` before position `n`. */
  ghost predicate NoFenceBefore(t: string, n: nat) {
    forall j: nat :: j < n ==> !FenceAt(t, j)
  }

  /** A fence at `n` with none before it is the one the search finds. */
  lemma FirstFenceAt(t: string, n: nat)
    requires FenceAt(t, n) && NoFenceBefore(t, n)
    ensures FindFence(t) == Some(n)
  {
  }

  /** The closing fence of a block is found whatever text follows it. */
  lemma FindFenceAfter(b: string, c: string)
    requires NoFenceBefore(b + Fence, |b|)
    ensures FindFence(b + Fence + c) == Some(|b|)
  {
    var t := b + Fence + c;
    forall j: nat | j < |b| ensures !FenceAt(t, j) {
      assert !FenceAt(b + Fence, j);
      assert t[j..j + 3] == (b + Fence)[j..j + 3];
    }
    assert t[|b|..|b| + 3] == Fence;
    FirstFenceAt(t, |b|);
  }

  /** The first character is kept when no fence starts there. */
  lemma KeepsHead(s: string)
    requires s != [] && !FenceAt(s, 0)
    ensures StripFences(s) == [s[0]] + StripFences(s[1..])
  {
    assert |s| >= 3 ==> s[..3] == s[0..3];
  }

  /** A leading block is removed up to the first closing fence. */
  lemma DropsLeadingBlock(b: string, c: string)
    requires NoFenceBefore(b + Fence, |b|)
    ensures StripFences(Fence + b + Fence + c) == StripFences(c)
  {
    var s := Fence + b + Fence + c;
    assert s[..3] == Fence;
    assert s[3..] == b + Fence + c;
    FindFenceAfter(b, c);
    assert s[3 + |b| + 3..] == c;
  }

  /** No fence starts at the front of a text that begins with such a prefix. */
  lemma PrefixHeadNoFence(a: string, rest: string)
    requires a != [] && NoFenceBefore(a + Fence, |a|)
    ensures !FenceAt(a + rest, 0)
  {
    var s := a + rest;
    if |s| >= 3 {
      if |a| >= 3 {
        assert !FenceAt(a + Fence, 0);
        assert s[..3] == (a + Fence)[..3];
      } else {
        assert !FenceAt(a + Fence, |a| - 1);
        assert (a + Fence)[|a| - 1..|a| + 2] == [a[|a| - 1]] + "``";
        assert s[0..3][|a| - 1] == a[|a| - 1];
      }
    }
  }

  /** Dropping the first character of such a prefix keeps it fence-free. */
  lemma NoFenceBeforeTail(a: string)
    requires a != [] && NoFenceBefore(a + Fence, |a|)
    ensures NoFenceBefore(a[1..] + Fence, |a| - 1)
  {
    forall j: nat | j < |a| - 1 ensures !FenceAt(a[1..] + Fence, j) {
      assert !FenceAt(a + Fence, j + 1);
      assert (a[1..] + Fence)[j..j + 3] == (a + Fence)[j + 1..j + 4];
    }
  }

  /** A prefix in which no fence starts, even with a fence right after it, is kept. */
  lemma {:induction false} KeepsPrefix(a: string, rest: string)
    requires NoFenceBefore(a + Fence, |a|)
    ensures StripFences(a + rest) == a + StripFences(rest)
  {
    if a != [] {
      var s := a + rest;
      var x := StripFences(rest);
      PrefixHeadNoFence(a, rest);
      KeepsHead(s);
      assert s[0] == a[0] && s[1..] == a[1..] + rest;
      NoFenceBeforeTail(a);
      KeepsPrefix(a[1..], rest);
      Assoc([a[0]], a[1..], x);
      assert [a[0]] + a[1..] == a;
    } else {
      assert a + rest == rest;
    }
  }

  /**
    A closed fenced block is removed up to its first closing fence, and the
    text before it is kept, provided no fence opens earlier.
   */
  lemma FencedBlockRemoved(a: string, b: string, c: string)
    requires NoFenceBefore(a + Fence, |a|) && NoFenceBefore(b + Fence, |b|)
    ensures StripFences(a + Fence + b + Fence + c) == a + StripFences(c)
  {
    Assoc(a, Fence, b);
    Assoc(a, Fence + b, Fence);
    Assoc(a, Fence + b + Fence, c);
    KeepsPrefix(a, Fence + b + Fence + c);
    DropsLeadingBlock(b, c);
  }

  /** Text without any "```" passes the block removal unchanged. */
  lemma {:induction false} NoFenceKept(s: string)
    requires FindFence(s).None?
    ensures StripFences(s) == s
    decreases |s|
  {
    if s != [] {
      if |s| >= 3 {
        assert s[..3] == s[0..3];
      }
      assert FindFence(s[1..]).None? by {
        forall j: nat | j + 3 <= |s[1..]|
          ensures !FenceAt(s[1..], j)
        {
          assert s[1..][j..j + 3] == s[j + 1..j + 4];
          assert !FenceAt(s, j + 1);
        }
      }
      NoFenceKept(s[1..]);
      assert s == [s[0]] + s[1..];
    }
  }

  /** Single-spaced text has nothing to collapse. */
  lemma {:induction false} CollapseKeepsSingleSpaced(s: string)
    requires SingleSpaced(s)
    ensures Collapse(s) == s
    decreases |s|
  {
    if s != [] {
      SingleSpacedSlice(s, 1, |s|);
      CollapseKeepsSingleSpaced(s[1..]);
      if IsSpace(s[0]) {
        CollapseSpaceHead(s);
      } else {
        CollapseWordHead(s);
      }
    }
  }

  /** A lone leading space before collapsed text stays as it is. */
  lemma CollapseSpaceHead(s: string)
    requires s != [] && s[0] == ' ' && (|s| == 1 || !IsSpace(s[1]))
    requires Collapse(s[1..]) == s[1..]
    ensures Collapse(s) == s
  {
    TrimLeftLoneSpace(s);
    assert s == [' '] + s[1..];
  }

  /** A leading visible character before collapsed text stays as it is. */
  lemma CollapseWordHead(s: string)
    requires s != [] && !IsSpace(s[0])
    requires Collapse(s[1..]) == s[1..]
    ensures Collapse(s) == s
  {
    assert s == [s[0]] + s[1..];
  }

  /** Cleaning leaves already-normalized text without fences untouched. */
  lemma CleanFixesNormalized(t: string)
    requires Normalized(t) && FindFence(t).None?
    ensures CleanTextForTts(t) == t
  {
    NoFenceKept(t);
    CollapseKeepsSingleSpaced(t);
    assert TrimLeft(t) == t;
    assert TrimRight(t) == t;
  }

  /** One space when `b` holds, nothing otherwise. */
  function Pad(b: bool): string {
    if b then " " else ""
  }

  /**
    Collapsing whitespace is `" ".join(s.split())` with one space kept for
    a leading whitespace run and one for a trailing run after the last word.
   */
  lemma {:induction false} CollapseIsJoin(s: string)
    ensures Collapse(s) == Pad(s != [] && IsSpace(s[0])) + Join(Words(s)) + Pad(Words(s) != [] && IsSpace(s[|s| - 1]))
    decreases |s|
  {
    if s == [] {
      CollapseJoinEmpty();
    } else if IsSpace(s[0]) {
      var t := TrimLeft(s);
      SpaceHead(s, t);
      CollapseIsJoin(t);
      CollapseJoinSpaceHead(s, t);
    } else {
      var w := TakeWord(s);
      var d := s[|w|..];
      CollapseIsJoin(d);
      CollapseJoinWordHead(s, w, d);
    }
  }

  lemma CollapseJoinEmpty()
    ensures Collapse([]) == [] && Words([]) == []
  {
    assert TrimLeft([]) == [];
  }

  /** The leading-whitespace step of `CollapseIsJoin`. */
  lemma CollapseJoinSpaceHead(s: string, t: string)
    requires s != [] && IsSpace(s[0]) && t == TrimLeft(s)
    requires Collapse(t) == Pad(t != [] && IsSpace(t[0])) + Join(Words(t)) + Pad(Words(t) != [] && IsSpace(t[|t| - 1]))
    ensures Collapse(s) == Pad(s != [] && IsSpace(s[0])) + Join(Words(s)) + Pad(Words(s) != [] && IsSpace(s[|s| - 1]))
  {
    SpaceHead(s, t);
    CollapseSpaceStep(s);
    CollapseSpaceCases(s, t, Collapse(s), Collapse(t));
  }

  /** A leading whitespace run becomes one space in front of the collapsed rest. */
  lemma CollapseSpaceStep(s: string)
    requires s != [] && IsSpace(s[0])
    ensures Collapse(s) == [' '] + Collapse(TrimLeft(s))
  {
  }

  /** `CollapseJoinSpaceHead` with the two collapses given as `cs` and `ct`. */
  lemma CollapseSpaceCases(s: string, t: string, cs: string, ct: string)
    requires s != [] && Words(s) == Words(t) && (t == [] || !IsSpace(t[0]))
    requires t != [] ==> t[|t| - 1] == s[|s| - 1]
    requires t == [] ==> Words(t) == []
    requires cs == [' '] + ct
    requires ct == Pad(t != [] && IsSpace(t[0])) + Join(Words(t)) + Pad(Words(t) != [] && IsSpace(t[|t| - 1]))
    ensures cs == Pad(true) + Join(Words(s)) + Pad(Words(s) != [] && IsSpace(s[|s| - 1]))
  {
    var j := Join(Words(s));
    var e := Pad(Words(s) != [] && IsSpace(s[|s| - 1]));
    assert Pad(t != [] && IsSpace(t[0])) == "" && [' '] == " ";
    assert Pad(Words(t) != [] && IsSpace(t[|t| - 1])) == e;
    NoPad(j, e);
    Assoc(" ", j, e);
  }

  /** A run of visible characters is copied by the collapse. */
  lemma {:induction false} CollapseTakesWord(s: string)
    requires s != [] && !IsSpace(s[0])
    ensures Collapse(s) == TakeWord(s) + Collapse(s[|TakeWord(s)|..])
    decreases |s|
  {
    var v := TakeWord(s[1..]);
    var r := s[1..][|v|..];
    TakeWordStep(s);
    CollapseWordStep(s);
    if s[1..] != [] && !IsSpace(s[1..][0]) {
      CollapseTakesWord(s[1..]);
    } else {
      assert v == [] && r == s[1..];
      assert Collapse(s[1..]) == v + Collapse(r);
    }
    Assoc([s[0]], v, Collapse(r));
  }

  /** A visible first character is copied in front of the collapsed rest. */
  lemma CollapseWordStep(s: string)
    requires s != [] && !IsSpace(s[0])
    ensures Collapse(s) == [s[0]] + Collapse(s[1..])
  {
  }

  lemma NoPad(j: string, e: string)
    ensures Pad(false) + j + e == j + e
  {
  }

  lemma Assoc(a: string, b: string, c: string)
    ensures a + (b + c) == (a + b) + c
  {
  }

  /** The leading-word step of `CollapseIsJoin`. */
  lemma CollapseJoinWordHead(s: string, w: string, d: string)
    requires s != [] && !IsSpace(s[0]) && w == TakeWord(s) && d == s[|w|..]
    requires Collapse(d) == Pad(d != [] && IsSpace(d[0])) + Join(Words(d)) + Pad(Words(d) != [] && IsSpace(d[|d| - 1]))
    ensures Collapse(s) == Pad(s != [] && IsSpace(s[0])) + Join(Words(s)) + Pad(Words(s) != [] && IsSpace(s[|s| - 1]))
  {
    WordHead(s, w, d);
    CollapseTakesWord(s);
    CollapseWordCases(s, w, d, Collapse(s), Collapse(d));
    NoPad(Join(Words(s)), Pad(IsSpace(s[|s| - 1])));
  }

  /** `CollapseJoinWordHead` with the two collapses given as `cs` and `cd`. */
  lemma CollapseWordCases(s: string, w: string, d: string, cs: string, cd: string)
    requires s == w + d && IsWord(w) && (d == [] || IsSpace(d[0]))
    requires cs == w + cd
    requires cd == Pad(d != [] && IsSpace(d[0])) + Join(Words(d)) + Pad(Words(d) != [] && IsSpace(d[|d| - 1]))
    ensures cs == Join([w] + Words(d)) + Pad(IsSpace(s[|s| - 1]))
  {
    if Words(d) == [] {
      assert [w] + Words(d) == [w];
      CollapseLastWord(s, w, d, cs, cd);
    } else {
      WordsNeedText(d);
      CollapseInnerWord(s, w, d, cs, cd);
    }
  }

  lemma WordsNeedText(d: string)
    requires Words(d) != []
    ensures d != []
  {
  }

  /** The last-word case of `CollapseJoinWordHead`, with the two collapses given as `cs` and `cd`. */
  lemma CollapseLastWord(s: string, w: string, d: string, cs: string, cd: string)
    requires s == w + d && IsWord(w) && Words(d) == []
    requires cs == w + cd
    requires cd == Pad(d != []) + Join([]) + Pad(false)
    ensures cs == Join([w]) + Pad(IsSpace(s[|s| - 1]))
  {
    var p := Pad(d != []);
    assert p + [] + [] == p;
    LastWordPad(s, w, d);
  }

  /** After the last word, the text ends in whitespace exactly when something follows the word. */
  lemma LastWordPad(s: string, w: string, d: string)
    requires s == w + d && IsWord(w) && Words(d) == []
    ensures Pad(d != []) == Pad(IsSpace(s[|s| - 1]))
  {
    if d == [] {
      assert s[|s| - 1] == w[|w| - 1];
    } else {
      NoWordsAllSpace(d);
      assert s[|s| - 1] == d[|d| - 1];
    }
  }

  /** The inner-word case of `CollapseJoinWordHead`, with the two collapses given as `cs` and `cd`. */
  lemma CollapseInnerWord(s: string, w: string, d: string, cs: string, cd: string)
    requires s == w + d && d != [] && IsSpace(d[0]) && Words(d) != []
    requires cs == w + cd
    requires cd == Pad(true) + Join(Words(d)) + Pad(IsSpace(d[|d| - 1]))
    ensures cs == Join([w] + Words(d)) + Pad(IsSpace(s[|s| - 1]))
  {
    var j := Join(Words(d));
    var e := Pad(IsSpace(s[|s| - 1]));
    JoinCons(w, Words(d));
    assert s[|s| - 1] == d[|d| - 1];
    SpacedAssoc(w, j, e);
  }

  lemma SpacedAssoc(w: string, j: string, e: string)
    ensures w + (" " + j + e) == w + " " + j + e
  {
  }

  /** `str.strip()` removes exactly the padding around joined words. */
  lemma StripPadded(a: bool, j: string, b: bool)
    requires j == [] || (!IsSpace(j[0]) && !IsSpace(j[|j| - 1]))
    ensures Strip(Pad(a) + j + Pad(b)) == j
  {
    if j == [] {
      var s := Pad(a) + j + Pad(b);
      assert AllSpace(s);
      TrimLeftAllSpace(s);
    } else {
      assert Pad(a) + j + Pad(b) == Pad(a) + (j + Pad(b));
      TrimLeftPad(a, j + Pad(b));
      TrimRightPad(j, b);
    }
  }

  lemma TrimLeftAllSpace(s: string)
    requires AllSpace(s)
    ensures TrimLeft(s) == []
  {
    var r := TrimLeft(s);
    if r != [] {
      assert r[0] == s[|s| - |r|];
    }
  }

  lemma TrimLeftPad(a: bool, l: string)
    requires l != [] && !IsSpace(l[0])
    ensures TrimLeft(Pad(a) + l) == l
  {
    if a {
      var s := " " + l;
      assert s[1] == l[0] && s[1..] == l;
      TrimLeftLoneSpace(s);
    } else {
      assert Pad(a) + l == l;
    }
  }

  lemma TrimRightPad(j: string, b: bool)
    requires j != [] && !IsSpace(j[|j| - 1])
    ensures TrimRight(j + Pad(b)) == j
  {
    if b {
      var l := j + " ";
      assert l[..|l| - 1] == j;
    } else {
      assert j + Pad(b) == j;
    }
  }

  /** `str.strip()` of collapsed text is the text's words joined by single spaces. */
  lemma CleanIsJoinedWords(x: string)
    ensures Strip(Collapse(x)) == Join(Words(x))
  {
    CollapseIsJoin(x);
    StripPadded(x != [] && IsSpace(x[0]), Join(Words(x)), Words(x) != [] && IsSpace(x[|x| - 1]));
  }

  /** A language code as `\w{2}(?:-\w{2})?` matches it. */
  predicate IsLangCode(c: string) {
    || (|c| == 2 && IsWordChar(c[0]) && IsWordChar(c[1]))
    || (|c| == 5 && IsWordChar(c[0]) && IsWordChar(c[1]) && c[2] == '-' && IsWordChar(c[3]) && IsWordChar(c[4]))
  }

  /** `s` holds "```" + `c` + "```" starting at position `i`. */
  predicate FencedAt(s: string, i: nat, c: string) {
    i + |c| + 6 <= |s| && s[i..i + 3] == Fence && s[i + 3..i + 3 + |c|] == c && s[i + 3 + |c|..i + 6 + |c|] == Fence
  }

  /** The answer contains a fenced language code somewhere. */
  ghost predicate HasFencedCode(s: string) {
    exists j: nat, c :: IsLangCode(c) && FencedAt(s, j, c)
  }

  /** The match of r'```(\w{2}(?:-\w{2})?)```' anchored at position `i`, as group 1. */
  function MatchAt(s: string, i: nat): (r: Option<string>)
    requires i <= |s|
    ensures r.Some? ==> IsLangCode(r.value) && FencedAt(s, i, r.value)
    ensures r.None? ==> forall c :: IsLangCode(c) ==> !FencedAt(s, i, c)
  {
    if i + 11 <= |s| && FencedAt(s, i, s[i + 3..i + 8]) && IsLangCode(s[i + 3..i + 8]) then
      Some(s[i + 3..i + 8])
    else if i + 8 <= |s| && FencedAt(s, i, s[i + 3..i + 5]) && IsLangCode(s[i + 3..i + 5]) then
      Some(s[i + 3..i + 5])
    else
      None
  }

  /** `re.search` from position `i` on: where the leftmost match starts. */
  function SearchFrom(s: string, i: nat): (r: Option<nat>)
    requires i <= |s|
    ensures r.Some? ==> i <= r.value <= |s| && MatchAt(s, r.value).Some?
    ensures r.Some? ==> forall k: nat :: i <= k < r.value ==> MatchAt(s, k).None?
    ensures r.None? ==> forall k: nat :: i <= k <= |s| ==> MatchAt(s, k).None?
    decreases |s| - i
  {
    if MatchAt(s, i).Some? then Some(i)
    else if i == |s| then None
    else SearchFrom(s, i + 1)
  }

  /**
    What `get_language` makes of the model's answer: the first fenced code,
    exactly as written, when there is one; otherwise the whole answer
    stripped and lower-cased; nothing when the answer is missing or empty.
   */
  function DetectLanguage(response: Option<string>): (r: Option<string>)
    ensures r.None? <==> response.None? || response.value == ""
    ensures response.Some? && HasFencedCode(response.value) ==>
      && r.Some? && IsLangCode(r.value)
      && exists j: nat :: (FencedAt(response.value, j, r.value)
        && forall k: nat, c :: k < j && IsLangCode(c) ==> !FencedAt(response.value, k, c))
    ensures response.Some? && response.value != "" && !HasFencedCode(response.value) ==>
      r == Some(Lower(Strip(response.value)))
  {
    if response.None? || response.value == "" then None
    else
      var s := response.value;
      var p := SearchFrom(s, 0);
      if p.Some? then
        var j := p.value;
        assert FencedAt(s, j, MatchAt(s, j).value);
        assert forall k: nat, c :: k < j && IsLangCode(c) ==> !FencedAt(s, k, c) by {
          forall k: nat, c | k < j && IsLangCode(c)
            ensures !FencedAt(s, k, c)
          {
            assert MatchAt(s, k).None?;
          }
        }
        MatchAt(s, j)
      else
        assert !HasFencedCode(s) by {
          forall k: nat, c | k <= |s| && IsLangCode(c)
            ensures !FencedAt(s, k, c)
          {
            assert MatchAt(s, k).None?;
          }
        }
        Some(Lower(Strip(s)))
  }

  /** An answer that is just a fenced code yields that code, case untouched. */
  lemma FencedCodeRoundTrip(c: string)
    requires IsLangCode(c)
    ensures DetectLanguage(Some(Fence + c + Fence)) == Some(c)
  {
    var s := Fence + c + Fence;
    assert s[0..3] == Fence;
    assert s[3..3 + |c|] == c;
    assert s[3 + |c|..6 + |c|] == Fence;
    assert FencedAt(s, 0, c);
  }

  /** Without backticks the answer is taken whole, stripped and lower-cased. */
  lemma PlainAnswer(resp: string)
    requires resp != [] && Fence[0] !in resp
    ensures DetectLanguage(Some(resp)) == Some(Lower(Strip(resp)))
  {
  }

  /**
    `generate_reply` after the model call: a missing or empty answer, or one
    that cleans down to nothing, gives no reply; otherwise the cleaned text.
   */
  function GenerateReply(answer: Option<string>): (r: Option<string>)
    ensures r.Some? <==> answer.Some? && answer.value != "" && CleanTextForTts(answer.value) != ""
    ensures r.Some? ==> r.value != "" && Normalized(r.value)
    ensures r.Some? ==> NonSpace(r.value) == NonSpace(StripFences(answer.value))
    ensures r.Some? ==> r.value == Join(Words(StripFences(answer.value)))
  {
    if answer.None? || answer.value == "" then None
    else
      var cleaned := CleanTextForTts(answer.value);
      if cleaned == "" then None else Some(cleaned)
  }

  /**
    `translate_text` after the model call: the cleaned answer, which may be
    empty; nothing when the answer is missing or empty.
   */
  function TranslateText(answer: Option<string>): (r: Option<string>)
    ensures r.Some? <==> answer.Some? && answer.value != ""
    ensures r.Some? ==> Normalized(r.value) && NonSpace(r.value) == NonSpace(StripFences(answer.value))
    ensures r.Some? ==> r.value == Join(Words(StripFences(answer.value)))
  {
    if answer.None? || answer.value == "" then None else Some(CleanTextForTts(answer.value))
  }

  /** A translation can come back empty where a reply cannot. */
  lemma TranslationMayBeEmpty()
    ensures TranslateText(Some(Fence + Fence)) == Some("")
    ensures GenerateReply(Some(Fence + Fence)) == None
  {
    FencedBlockRemoved("", "", "");
    assert Fence + Fence == "" + Fence + "" + Fence + "";
  }
}

=== FILE: views.dfy ===
/**
  The read-only queries of `StatusManager`: `get_all_status`,
  `get_task_status` and `get_processed_ids`. They return copies of the
  stored records with a derived `progress` field; the ledger itself is not
  changed (each is a function of the state, not a step).
 */
module Views {
  import opened Basics
  import opened JsonValue
  import opened TaskRecord
  import opened Ledger

  /**
    A copy of a stored record plus the derived `progress` key (which
    shadows any `progress` key a report may have merged into `extra`).
   */
  datatype TaskView = TaskView(task: Task, progress: Value)

  /** `get_all_status`'s dictionary: the copies and the two counters. */
  datatype Overview = Overview(tasks: map<Id, TaskView>, downloadQueueCount: nat, processedCount: nat)

  function ViewOf(t: Task): TaskView {
    TaskView(t, DerivedProgress(t))
  }

  /** `get_all_status`. */
  function GetAllStatus(s: State): (o: Overview)
    ensures o.tasks.Keys == s.tasks.Keys
    ensures forall id :: id in s.tasks ==> o.tasks[id].task == s.tasks[id] && o.tasks[id].progress == DerivedProgress(s.tasks[id])
    ensures o.downloadQueueCount == |s.queue| && o.processedCount == |s.processed|
  {
    Overview(map id | id in s.tasks :: ViewOf(s.tasks[id]), |s.queue|, |s.processed|)
  }

  /** `get_task_status`: the copy of one record, or `None` for an unknown id. */
  function GetTaskStatus(s: State, id: Id): (r: Option<TaskView>)
    ensures r.Some? <==> id in s.tasks
    ensures r.Some? ==> r.value.task == s.tasks[id] && r.value.progress == DerivedProgress(s.tasks[id])
  {
    if id in s.tasks then Some(ViewOf(s.tasks[id])) else None
  }

  /** `get_processed_ids`: a copy of the processed set. */
  function GetProcessedIds(s: State): (r: set<Id>)
    ensures forall id :: id in r <==> id in s.processed
    ensures |r| == GetAllStatus(s).processedCount
  {
    s.processed
  }

  /** The single-record view agrees with the full snapshot, for every id. */
  lemma ViewsAgree(s: State, id: Id)
    ensures GetTaskStatus(s, id) == (if id in GetAllStatus(s).tasks then Some(GetAllStatus(s).tasks[id]) else None)
  {
  }
}

=== FILE: without_re_import.dfy ===
/**
  The text service as written: `llm_tts_service.py` calls `re.search` and
  `re.sub` but never imports `re`, so each of those calls raises
  `NameError` at the point it is reached. These members model that
  behaviour; the rest of the model uses the intended definitions in
  `TtsText` and `CommentPipeline`, and the lemmas here show where the two
  part.
 */
module WithoutReImport {
  import opened Basics
  import opened TtsText
  import opened CommentPipeline

  const NameError: string := "NameError: name 're' is not defined"

  /** `clean_text_for_tts` as written: after its debug log, the first `re.sub` raises. */
  function CleanTextAsWritten(text: string): (r: Result<string>)
    ensures r.Raised?
  {
    Raised(NameError)
  }

  /** `get_language` after the model call, as written: only an empty answer gets through. */
  function DetectLanguageAsWritten(response: Option<string>): (r: Result<Option<string>>)
    ensures r.Ok? <==> !Present(response)
    ensures r.Ok? ==> r.value == DetectLanguage(response)
  {
    if Present(response) then Raised(NameError) else Ok(None)
  }

  /** `generate_reply` after the model call, as written. */
  function GenerateReplyAsWritten(answer: Option<string>): (r: Result<Option<string>>)
    ensures r.Ok? <==> !Present(answer)
    ensures r.Ok? ==> r.value == GenerateReply(answer)
  {
    if Present(answer) then
      match CleanTextAsWritten(answer.value)
      case Raised(e) => Raised(e)
      case Ok(cleaned) => if cleaned == "" then Ok(None) else Ok(Some(cleaned))
    else Ok(None)
  }

  /** `translate_text` after the model call, as written. */
  function TranslateTextAsWritten(answer: Option<string>): (r: Result<Option<string>>)
    ensures r.Ok? <==> !Present(answer)
    ensures r.Ok? ==> r.value == TranslateText(answer)
  {
    if Present(answer) then
      match CleanTextAsWritten(answer.value)
      case Raised(e) => Raised(e)
      case Ok(cleaned) => Ok(Some(cleaned))
    else Ok(None)
  }

  /** One translation block, as written. */
  function BlockAsWritten(language: Option<string>, target: Target, answer: Option<string>,
                          speak: (Clip, string) -> Option<string>): (r: Result<Slot>)
    ensures r.Ok? <==> !Attempts(language, target) || !Present(answer)
    ensures r.Ok? ==> r.value == TranslateBlock(language, target, TranslateText(answer), speak)
  {
    if Attempts(language, target) then
      match TranslateTextAsWritten(answer)
      case Raised(e) => Raised(e)
      case Ok(translated) => Ok(TranslateBlock(language, target, translated, speak))
    else Ok(Skipped)
  }

  /**
    `process_comment_for_audio` as written: it completes only when neither
    the language answer nor the reply answer reaches a regular expression,
    and then agrees with the intended handler.
   */
  function ProcessAsWritten(commentId: string, text: string,
                            languageAnswer: Option<string>,
                            answers: Target -> Option<string>,
                            replyAnswer: Option<string>,
                            speak: (Clip, string) -> Option<string>): (r: Result<Outcome>)
    ensures r.Ok? <==> !Present(languageAnswer) && !Present(replyAnswer)
    ensures r.Ok? ==> r.value == ProcessWithAnswers(commentId, text, languageAnswer, answers, replyAnswer, speak)
  {
    match DetectLanguageAsWritten(languageAnswer)
    case Raised(e) => Raised(e)
    case Ok(language) =>
      match BlockAsWritten(language, Ja, answers(Ja), speak)
      case Raised(e) => Raised(e)
      case Ok(ja) =>
        match BlockAsWritten(language, En, answers(En), speak)
        case Raised(e) => Raised(e)
        case Ok(en) =>
          match BlockAsWritten(language, Es, answers(Es), speak)
          case Raised(e) => Raised(e)
          case Ok(es) =>
            match GenerateReplyAsWritten(replyAnswer)
            case Raised(e) => Raised(e)
            case Ok(reply) => Ok(Outcome(commentId, text, language, ja, en, es, reply, ReplyBlock(reply, speak)))
  }

  /** A fenced language answer makes the shipped handler raise where the intended one detects Japanese. */
  lemma FencedAnswerRaises(commentId: string, text: string,
                           answers: Target -> Option<string>,
                           replyAnswer: Option<string>,
                           speak: (Clip, string) -> Option<string>)
    ensures ProcessAsWritten(commentId, text, Some(Fence + "ja" + Fence), answers, replyAnswer, speak).Raised?
    ensures ProcessWithAnswers(commentId, text, Some(Fence + "ja" + Fence), answers, replyAnswer, speak).language
      == Some("ja")
  {
    FencedCodeRoundTrip("ja");
  }
}
